=== FILE: README.md ===
# LMS grading and scheduling core, in Dafny

A model of the logic at the heart of a small learning-management backend
(ASP.NET controllers over a relational schema): the **grade recomputation**
that turns weighted assignment categories into a letter grade for every
enrolled student, the **letter-grade scale** and the **GPA** built on it, the
**catalog and scheduling validation** for departments, courses and class
offerings, and the small **upsert and uniqueness rules** around them
(enrolling, submitting, scoring, creating categories and assignments).

The database is one immutable value `Schema.Db` holding a sequence per table.
Every controller action is a pure function from a state to a
`Response(success, db)`; on failure the state is returned unchanged.
Identity values are positive (`Base.Id`); where a controller answers its `0`
"not found" sentinel, the model answers `None`. A LINQ `FirstOrDefault` over a
join is a nested-loop first match in table order (`Base.JoinFirst`).
Timestamps are whole seconds; `TimeOnly.FromDateTime` is the timestamp modulo
86400. Percentages and grade points are `real`.

Files: `base.dfy` (options, first-match search, next identity value),
`schema.dfy` (tables and their uniqueness rules), `lookup.dfy` (class,
assignment and submission lookups), `letter_scale.dfy`, `grading.dfy`,
`professor.dfy`, `student.dfy`, `administrator.dfy`, `as_written.dfy` (the
recomputation evaluated in doubles, see Findings) and `scenarios.dfy` (worked
examples on concrete states).

Two modelling choices:

- A category whose assignments are worth 0 points in total (it has none, or
  only 0-point ones) adds nothing to a student's weighted sum, and its weight
  stays in the total weight (`Grading.Contribution`, `Grading.Percent`). This
  is a chosen policy. The controller divides by that 0 instead; see Findings.
  The other plausible reading drops such a category together with its
  weight. `Grading.PercentOverGraded` models that reading, and the two
  readings agree on every class without such a category.
- Creating an assignment category does not recompute grades, because the
  controller does not (ProfessorController.cs:234-237). Creating an
  assignment and scoring a submission do recompute.

## Model

| member | source | states |
|---|---|---|
| Lookup.GetClassId | LMSHandout/LMS/Controllers/ProfessorController.cs:415-425 | The class is found exactly when some course (subject, number) has an offering in (season, year), and the id returned is such an offering's |
| Lookup.GetClassIdFindsTheOffering | LMSHandout/LMS/Controllers/ProfessorController.cs:415-425 | While courses are unique and offerings unique per semester, the lookup returns exactly the matching offering |
| Lookup.FindAssignment | LMSHandout/LMS/Controllers/ProfessorController.cs:349-356 | The assignment is found exactly when a category of the class with that name holds an assignment with that name, and the id is such an assignment's |
| Lookup.FindAssignmentFindsTheAssignment | LMSHandout/LMS/Controllers/ProfessorController.cs:349-352 | While category and assignment names are unique, the lookup returns exactly the matching assignment |
| Lookup.FindSubmission | LMSHandout/LMS/Controllers/ProfessorController.cs:357-359 | Finds a submission of that student to that assignment exactly when one exists |
| LetterScale.ConvertToLetterGrade | LMSHandout/LMS/Controllers/ProfessorController.cs:476-490 | Every percentage maps to one of the twelve letters |
| LetterScale.ConvertFollowsScale | LMSHandout/LMS/Controllers/ProfessorController.cs:476-490 | The chain of comparisons equals a lookup of the first band whose threshold the percentage reaches, in the descending threshold table |
| LetterScale.BandIsExact | LMSHandout/LMS/Controllers/ProfessorController.cs:478-488 | A band's letter is earned exactly by percentages from its threshold (inclusive) up to the next better threshold (exclusive): 93 gives "A", just below 93 gives "A-", 60 gives "D-" |
| LetterScale.FailingIsExact | LMSHandout/LMS/Controllers/ProfessorController.cs:488-489 | "E" is earned exactly below 60 |
| LetterScale.ConvertIsMonotone | LMSHandout/LMS/Controllers/ProfessorController.cs:476-490 | A higher percentage never earns a worse-ranked letter nor fewer grade points |
| LetterScale.LetterToPoint | LMSHandout/LMS/Controllers/StudentController.cs:274-290 | Points lie in [0, 4]; each passing letter is worth its band's points; "E", the placeholder and anything else are worth 0 |
| LetterScale.PointsFollowRank | LMSHandout/LMS/Controllers/StudentController.cs:276-289 | A better-ranked letter is never worth fewer points |
| LetterScale.ThresholdsRoundTrip | LMSHandout/LMS/Controllers/StudentController.cs:274-290 | A band's threshold converts to the band's letter and that letter converts back to the band's points: the two tables agree |
| Grading.ClassCategories | LMSHandout/LMS/Controllers/ProfessorController.cs:437-438 | Exactly the categories belonging to the class are used |
| Grading.CategoryOf | LMSHandout/LMS/Controllers/ProfessorController.cs:458 | A submission's category is found exactly when its assignment exists, and is that assignment's category |
| Grading.CategoryMax | LMSHandout/LMS/Controllers/ProfessorController.cs:442 | The points of a category: the sum of its assignments' maximum points, 0 for a category without assignments (pinned by `AsWritten.NoAssignmentsNoPoints`) |
| Grading.Earned | LMSHandout/LMS/Controllers/ProfessorController.cs:457-460 | The sum of the student's scores on submissions whose assignment is in the category, 0 when none counts (pinned by `Grading.NoSubmissionsEarnNothing`) |
| Grading.TotalWeight | LMSHandout/LMS/Controllers/ProfessorController.cs:447 | The sum of the weights of all the class's categories; bounds the graded weight (`Grading.GradedWeight`) and decides the 0 percent case (`Grading.ZeroTotalWeightFailsEveryone`) |
| Grading.Contribution | LMSHandout/LMS/Controllers/ProfessorController.cs:455-464 | A category adds a non-negative amount, nothing when it is worth 0 points, and at most its weight when the student did not score above its maximum |
| Grading.Scaled | LMSHandout/LMS/Controllers/ProfessorController.cs:453-464 | The weighted sum is never negative |
| Grading.Percent | LMSHandout/LMS/Controllers/ProfessorController.cs:447-466 | The percentage is never negative and is 0 when the class's categories weigh 0 in total |
| Grading.UpdateClassGrades | LMSHandout/LMS/Controllers/ProfessorController.cs:449-470 | Only the grades of the class's enrollments change, each to the letter of the student's percentage; other tables and other classes' enrollments are untouched |
| Grading.PercentReadsGradingTables | LMSHandout/LMS/Controllers/ProfessorController.cs:437-466 | Percentages depend only on categories, assignments and submissions |
| Grading.UpdateClassGradesIsIdempotent | LMSHandout/LMS/Controllers/ProfessorController.cs:435-471 | Recomputing twice in a row equals recomputing once |
| Grading.ZeroTotalWeightFailsEveryone | LMSHandout/LMS/Controllers/ProfessorController.cs:466-467 | With total weight 0, every enrolled student is graded "E" |
| Grading.NoSubmissionsEarnNothing | LMSHandout/LMS/Controllers/ProfessorController.cs:457-460 | A student with no submission counting for a category earns 0 in that category, whatever they submitted elsewhere |
| Grading.NothingEarnedScalesToZero | LMSHandout/LMS/Controllers/ProfessorController.cs:455-464 | A student with no submissions has weighted sum 0 |
| Grading.NoSubmissionsFail | LMSHandout/LMS/Controllers/ProfessorController.cs:457-467 | A student with no submissions gets 0 percent and "E"; missing submissions never make the computation fail |
| Grading.CappedScaledAtMostWeight | LMSHandout/LMS/Controllers/ProfessorController.cs:455-464 | When no category score exceeds its maximum, the weighted sum is at most the total weight |
| Grading.CappedPercentAtMost100 | LMSHandout/LMS/Controllers/ProfessorController.cs:455-466 | Scores are not clamped, so only students who never score above a maximum are guaranteed at most 100 percent |
| Grading.GradedWeight | LMSHandout/LMS/Controllers/ProfessorController.cs:442-447 | The weight of the categories worth some points is at most the total weight |
| Grading.FullMarksContribution | LMSHandout/LMS/Controllers/ProfessorController.cs:457-463 | Full marks in a category add its whole weight when it is worth some points, nothing otherwise |
| Grading.FullMarksScaleToGradedWeight | LMSHandout/LMS/Controllers/ProfessorController.cs:455-464 | Full marks everywhere give a weighted sum equal to the weight of the categories worth some points |
| Grading.FullMarksPercent | LMSHandout/LMS/Controllers/ProfessorController.cs:442-466 | Full marks give 100 percent times the share of the total weight held by categories worth some points |
| Grading.PercentOverGraded | LMSHandout/LMS/Controllers/ProfessorController.cs:444-466 | The other reading, dropping a category worth 0 points with its weight: never negative, 0 when no category has points |
| Grading.FullMarksPercentOverGraded | LMSHandout/LMS/Controllers/ProfessorController.cs:444-466 | Under that reading full marks are always 100 percent |
| Grading.AllGradedWeight | LMSHandout/LMS/Controllers/ProfessorController.cs:444-447 | When every category has points, the graded weight is the total weight |
| Grading.ReadingsAgreeWhenNoEmptyCategory | LMSHandout/LMS/Controllers/ProfessorController.cs:444-466 | When every category of the class has points, both readings give the same percentage |
| Professor.CreateAssignmentCategory | LMSHandout/LMS/Controllers/ProfessorController.cs:218-238 | Fails, state unchanged, on an unknown class or a duplicate name in the class; otherwise adds exactly one category with a fresh id, the given name and weight, and regrades nothing |
| Professor.CreateAssignmentCategoryKeepsNamesUnique | LMSHandout/LMS/Controllers/ProfessorController.cs:224-234 | Category names stay unique per class |
| Professor.CreateAssignment | LMSHandout/LMS/Controllers/ProfessorController.cs:253-283 | Fails, state unchanged, on an unknown class or category or a duplicate name in the category; otherwise adds exactly one assignment with a fresh id to that category, then regrades the class |
| Professor.CreateAssignmentKeepsNamesUnique | LMSHandout/LMS/Controllers/ProfessorController.cs:265-277 | Assignment names stay unique per category |
| Professor.SetScore | LMSHandout/LMS/Controllers/ProfessorController.cs:357-375 | Some submission of the student to the assignment carries the score; a created one has empty contents and the given time; existing rows keep their contents and time; other rows are untouched |
| Professor.SetScoreLeavesOneScoredSubmission | LMSHandout/LMS/Controllers/ProfessorController.cs:357-375 | Submissions stay unique per (assignment, student) and the one for this pair carries the new score |
| Professor.GradeSubmission | LMSHandout/LMS/Controllers/ProfessorController.cs:342-380 | Fails, state unchanged, on an unknown class or assignment; otherwise upserts the score, then regrades the class |
| Professor.GradeSubmissionStoresScore | LMSHandout/LMS/Controllers/ProfessorController.cs:357-378 | After scoring there is exactly one submission for the pair, carrying the new score |
| Student.DisplayGrade | LMSHandout/LMS/Controllers/StudentController.cs:88 | A null or empty stored grade is shown as "--", any other grade as stored |
| Student.CountedIffDisplayedGraded | LMSHandout/LMS/Controllers/StudentController.cs:254 | A grade counts towards the GPA exactly when the class list shows it as a grade rather than "--" |
| Student.CountedGrades | LMSHandout/LMS/Controllers/StudentController.cs:254 | Only non-empty grades other than "--" are counted |
| Student.SumPoints | LMSHandout/LMS/Controllers/StudentController.cs:258-266 | The total of points is between 0 and 4 per grade |
| Student.MeanPoints | LMSHandout/LMS/Controllers/StudentController.cs:255-268 | The mean lies in [0, 4] and is 0.0 when nothing counts |
| Student.MeanTimesCount | LMSHandout/LMS/Controllers/StudentController.cs:258-268 | The mean times the number of counted grades is their total of points |
| Student.Gpa | LMSHandout/LMS/Controllers/StudentController.cs:252-269 | The GPA lies in [0, 4] and is 0.0 when no enrollment counts |
| Student.GetGPA | LMSHandout/LMS/Controllers/StudentController.cs:252-269 | The accumulate-and-count loop computes the mean of the counted grades' points |
| Student.GpaIgnoresUncounted | LMSHandout/LMS/Controllers/StudentController.cs:254 | Enrollments of other students, ungraded and null-graded enrollments are dropped from the counted grades and never change a GPA |
| Student.CountedGradesAreUids | LMSHandout/LMS/Controllers/StudentController.cs:254 | One grade is kept per counted enrollment of the student, and a grade is kept exactly when a counted enrollment of the student has it |
| Student.GpaCountsGraded | LMSHandout/LMS/Controllers/StudentController.cs:254 | A graded enrollment of the student joins the counted grades |
| Student.Enroll | LMSHandout/LMS/Controllers/StudentController.cs:213-239 | Fails, state unchanged, on an unknown class or an existing enrollment in it; otherwise adds exactly one enrollment with grade "--" |
| Student.EnrollKeepsEnrollmentsUnique | LMSHandout/LMS/Controllers/StudentController.cs:226-237 | One enrollment per (student, class) is preserved, and after success the student is enrolled |
| Student.PutContents | LMSHandout/LMS/Controllers/StudentController.cs:176-196 | A first submission is created with score 0 and the contents; a resubmission replaces contents and time in place; no score changes; other rows are untouched |
| Student.PutContentsLeavesOneSubmission | LMSHandout/LMS/Controllers/StudentController.cs:176-196 | Submissions stay unique per (assignment, student) and the one for this pair holds the latest contents and time |
| Student.SubmitAssignmentText | LMSHandout/LMS/Controllers/StudentController.cs:154-200 | Fails, state unchanged, on an unknown class or assignment; otherwise upserts the submission and regrades nothing |
| Administrator.CreateDepartment | LMSHandout/LMS/Controllers/AdministratorController.cs:51-69 | Fails, state unchanged, when the subject exists; otherwise adds exactly that department |
| Administrator.CreateDepartmentKeepsSubjectsUnique | LMSHandout/LMS/Controllers/AdministratorController.cs:53-68 | Subjects stay unique and the subject exists afterwards |
| Administrator.CreateCourse | LMSHandout/LMS/Controllers/AdministratorController.cs:125-144 | Fails, state unchanged, when (subject, number) exists; otherwise adds exactly one course with a fresh catalog id |
| Administrator.CreateCourseKeepsCoursesUnique | LMSHandout/LMS/Controllers/AdministratorController.cs:127-142 | (subject, number) stays unique and the course exists afterwards |
| Administrator.ValidateNewOffering | LMSHandout/LMS/Controllers/AdministratorController.cs:166-197 | Rejects an unknown course exactly when no course matches; accepts only a known course with no offering in the semester and no half-open overlap in the same location and semester |
| Administrator.OfferedIn | LMSHandout/LMS/Controllers/AdministratorController.cs:175-179 | Some offering of the course exists in (season, year) (its use pinned by `Administrator.SecondOfferingIsRejected`) |
| Administrator.RoomTaken | LMSHandout/LMS/Controllers/AdministratorController.cs:187-193 | Some offering in the location and semester overlaps [start, end) half-open (its use pinned by `Administrator.RoomConflictIsRejected`) |
| Administrator.SecondOfferingIsRejected | LMSHandout/LMS/Controllers/AdministratorController.cs:175-183 | A course already offered in the semester is rejected as a duplicate whatever the location and times |
| Administrator.RoomConflictIsRejected | LMSHandout/LMS/Controllers/AdministratorController.cs:185-197 | For a known, not yet offered course, the location conflict is reported exactly when some offering in the location and semester overlaps |
| Administrator.CreateClass | LMSHandout/LMS/Controllers/AdministratorController.cs:164-214 | On success adds exactly one class, with a fresh id and the times of day of start and end; on any failure the state is unchanged |
| Administrator.CreateClassKeepsSchedule | LMSHandout/LMS/Controllers/AdministratorController.cs:175-213 | Unique class ids, one offering per course and semester, and pairwise non-overlap per location and semester are preserved |
| Schema.TimeOfDay | LMSHandout/LMS/Controllers/AdministratorController.cs:185-186 | Only the time of day of a timestamp is kept: less than a day, differing from the timestamp by whole days |
| Schema.OverlapsIsSymmetric | LMSHandout/LMS/Controllers/AdministratorController.cs:191-192 | The overlap test is symmetric, and back-to-back intervals do not overlap |
| AsWritten.Div | LMSHandout/LMS/Controllers/ProfessorController.cs:462 | Dividing by 0 points gives NaN for 0 earned and +Infinity otherwise |
| AsWritten.ConvertDouble | LMSHandout/LMS/Controllers/ProfessorController.cs:476-490 | On finite values the conversion is the letter scale; +Infinity gives "A"; NaN fails every comparison and gives "E" |
| AsWritten.ContributionAsWritten | LMSHandout/LMS/Controllers/ProfessorController.cs:457-463 | A category's earned / max * weight in doubles, dividing even when max is 0 (pinned by `AsWritten.ContributionAgrees`) |
| AsWritten.ScaledAsWritten | LMSHandout/LMS/Controllers/ProfessorController.cs:453-464 | The doubles' running sum over the class's categories (pinned by `AsWritten.ScaledAgreesWhenNoEmptyCategory` and `AsWritten.EmptyCategoryGivesNaN`) |
| AsWritten.PercentAsWritten | LMSHandout/LMS/Controllers/ProfessorController.cs:466 | The sum over the total weight times 100 when the total weight is positive, else 0, with NaN and +Infinity passed through |
| AsWritten.GradeAsWritten | LMSHandout/LMS/Controllers/ProfessorController.cs:466-467 | The letter the controller stores (pinned by `AsWritten.AgreesWhenNoEmptyCategory`, `AsWritten.EmptyCategoryFailsEveryone` and the scenarios) |
| AsWritten.ContributionAsWrittenCases | LMSHandout/LMS/Controllers/ProfessorController.cs:462-463 | A category's term is NaN exactly when it is worth 0 points and the student earned nothing in it or it weighs 0, and +Infinity exactly when it is worth 0 points, something was earned and it weighs more than 0 |
| AsWritten.ScaledAsWrittenCases | LMSHandout/LMS/Controllers/ProfessorController.cs:453-464 | The running sum is NaN exactly when some term is NaN, and +Infinity exactly when no term is NaN and some term is +Infinity |
| AsWritten.InfiniteOrNaNSum | LMSHandout/LMS/Controllers/ProfessorController.cs:466-490 | A +Infinity sum is graded "A"; a NaN sum is graded "E" |
| AsWritten.ScaledAgreesWhenNoEmptyCategory | LMSHandout/LMS/Controllers/ProfessorController.cs:455-464 | When every category is worth some points, the doubles' sum is the model's weighted sum |
| AsWritten.ContributionAgrees | LMSHandout/LMS/Controllers/ProfessorController.cs:457-463 | A category worth some points adds in doubles exactly what the model adds |
| AsWritten.AgreesWhenNoEmptyCategory | LMSHandout/LMS/Controllers/ProfessorController.cs:437-467 | When every category of the class is worth some points, the controller and the model give the same letter |
| AsWritten.NoAssignmentsNoPoints | LMSHandout/LMS/Controllers/ProfessorController.cs:442 | A category without assignments is worth 0 points |
| AsWritten.NoAssignmentsNothingEarned | LMSHandout/LMS/Controllers/ProfessorController.cs:457-460 | A category without assignments has nothing earned in it |
| AsWritten.EmptyCategoryGivesNaN | LMSHandout/LMS/Controllers/ProfessorController.cs:455-464 | One category without assignments makes the doubles' sum NaN |
| AsWritten.EmptyCategoryFailsEveryone | LMSHandout/LMS/Controllers/ProfessorController.cs:444-467 | As written, one category without assignments makes every student of the class "E" |
| Scenarios.WeightedScenario | LMSHandout/LMS/Controllers/ProfessorController.cs:455-467 | Homework 80/100 at weight 50 and Exam 90/100 at weight 50 give 85 percent and "B" |
| Scenarios.EmptyExamScenario | LMSHandout/LMS/Controllers/ProfessorController.cs:444-467 | Full marks at weight 90 plus an empty category at weight 10: the model gives 90 and "A-", the other reading 100, the controller "E" |
| Scenarios.ZeroPointBonusScenario | LMSHandout/LMS/Controllers/ProfessorController.cs:462 | 5 points on a 0-point assignment and 0 elsewhere: both readings give 0 and "E", the controller "A" |
| Scenarios.ZeroWeightBonusScenario | LMSHandout/LMS/Controllers/ProfessorController.cs:462-467 | 100 of 100 on Homework at weight 100 and 5 points on a 0-point Bonus at weight 0: the model and the other reading give 100 and "A", the controller "E" |
| Scenarios.TwoBonusScenario | LMSHandout/LMS/Controllers/ProfessorController.cs:453-467 | 5 points on a 0-point Bonus beside an unsubmitted 0-point category, no category without assignments: the +Infinity is absorbed by NaN and the controller stores "E" |
| Scenarios.UnclampedScenario | LMSHandout/LMS/Controllers/ProfessorController.cs:457-466 | 150 points on a 100-point assignment give 150 percent |
| Scenarios.TranscriptCountsTwo | LMSHandout/LMS/Controllers/StudentController.cs:254 | Of a transcript with "A", "B", "--", a null grade and another student's "E", only the "A" and the "B" are counted |
| Scenarios.GpaScenario | LMSHandout/LMS/Controllers/StudentController.cs:252-268 | One "A" and one "B" give 3.5; "--", empty grades and other students are ignored |
| Scenarios.OverlapScenario | LMSHandout/LMS/Controllers/AdministratorController.cs:166-197 | [9:00,10:00) next to [10:00,11:00) is accepted, [9:00,10:30) is a location conflict, a second offering of a course is a duplicate, an unknown course is rejected; the date part of the timestamps is ignored |

## Left out

- The read-only catalog, offering and content queries (`CommonController`), view actions, JSON shaping, date formatting and role authorization: projections with no logic to prove.
- Persistence: Entity Framework, `SaveChanges` and the SQL translation of the queries. Foreign keys are not enforced, so creating a course for an unknown department succeeds here where the database would refuse the insert.
- Row order: a `FirstOrDefault` without ordering reads rows in an order SQL does not fix; the model reads table order. Under the uniqueness rules the result is the same.
- Concurrency: each action is one sequential state transition; the check-then-insert races between requests are not modelled.
- The clock: `DateTime.Now` is the parameter `now`; timestamps are whole seconds, not 100-nanosecond ticks.
- Floating point: percentages and points are exact reals; rounding is not modelled, and NaN and +Infinity are modelled only in `AsWritten`.
- Integer casts: the `(uint)` casts of possibly negative `int` inputs wrap in C#; the model takes `nat` inputs instead.
- Null strings: a null grade and an empty grade are the same value "" here, as every use treats them alike.
- Administrator.ValidateNewOffering: its contract states the duplicate and location-conflict rejections in one direction only; the converses hold while courses are unique and are proved by `SecondOfferingIsRejected` and `RoomConflictIsRejected`.
- Administrator.CreateClass: does not check that the start time is before the end time or that the instructor exists, because the controller does not either.

## Findings

| source | as written | input that shows it | evidently intended | confidence | as-written member | corrected member |
|---|---|---|---|---|---|---|
| LMSHandout/LMS/Controllers/ProfessorController.cs:444-462 | The filter `MaxPoints >= 0` keeps every category, so a category worth 0 points is divided by 0: with nothing earned that is 0/0 = NaN, NaN fails every threshold, and every student of the class is graded "E" | Homework at weight 90 with 100/100 earned, Exam at weight 10 with no assignment yet: "E" for a student with full marks in the only category that has an assignment | A category without points does not turn every grade into "E"; the doc comment at lines 428-433 computes only over categories with at least one assignment. Keeping the empty category's weight gives 90 percent ("A-"), the model's policy; dropping it with its weight gives 100 percent ("A") | high; not executed | AsWritten.EmptyCategoryFailsEveryone | Grading.Contribution |
| LMSHandout/LMS/Controllers/ProfessorController.cs:462-467 | For a category worth 0 points in which the student scored something (a 0-point bonus assignment), earned / 0 is +Infinity. The grade is then "A" whatever the student scored elsewhere, provided that category weighs more than 0 and no category of the class gives NaN for the student, that is, none is worth 0 points with nothing earned by the student, or worth 0 points with something earned at weight 0. Otherwise NaN absorbs the sum and the grade is "E", even for a perfect student | 5 points on a 0-point Bonus at weight 10, 0 of 100 on Homework at weight 90: "A" where both readings give 0 percent ("E"). With Bonus at weight 0 and 100 of 100 on Homework at weight 100: "E" where both readings give 100 percent ("A"). With a second, unsubmitted 0-point category beside the scored Bonus: "E" | A category worth 0 points adds nothing to the weighted sum | high; not executed | Scenarios.ZeroPointBonusScenario, Scenarios.TwoBonusScenario, AsWritten.ScaledAsWrittenCases | Grading.Contribution |

The corrected model keeps the weight of a category worth 0 points in the
total weight, so such a category lowers the full-marks percentage whenever
it weighs more than 0 (`Grading.FullMarksPercent`). That is a chosen policy, not something the
controller settles: its filter at line 444 runs before the weight sum at
line 447, so a filter that worked (`MaxPoints > 0`) would drop the weight as
well. `Grading.PercentOverGraded` models that reading, under which full marks
are always 100 percent (`Grading.FullMarksPercentOverGraded`); the worked
example above gives 90 percent under the model's policy and 100 under the
other reading (`Scenarios.EmptyExamScenario`). Where every category is worth
some points, both readings coincide (`Grading.ReadingsAgreeWhenNoEmptyCategory`)
and agree with the controller (`AsWritten.AgreesWhenNoEmptyCategory`).

=== FILE: administrator.dfy ===
/** The administrator's catalog actions: departments, courses, and class
    offerings, whose creation is validated against the offerings already
    scheduled. */
module Administrator {
  import opened Base
  import opened Schema

  predicate HasDepartment(ds: seq<Department>, subject: string) {
    exists k :: 0 <= k < |ds| && ds[k].subject == subject
  }

  /** Adds department `subject`; fails, changing nothing, when it exists. */
  function CreateDepartment(db: Db, subject: string, name: string): (r: Response)
    ensures r.success <==> !HasDepartment(db.departments, subject)
    ensures !r.success ==> r.db == db
    ensures r.success ==> r.db == db.(departments := db.departments + [Department(subject, name)])
  {
    if HasDepartment(db.departments, subject) then Response(false, db)
    else Response(true, db.(departments := db.departments + [Department(subject, name)]))
  }

  /** Creating a department keeps subjects unique, and afterwards the
      subject exists. */
  lemma CreateDepartmentKeepsSubjectsUnique(db: Db, subject: string, name: string)
    requires SubjectsUnique(db.departments)
    ensures var r := CreateDepartment(db, subject, name);
      SubjectsUnique(r.db.departments) && HasDepartment(r.db.departments, subject)
  {
    var r := CreateDepartment(db, subject, name);
    if r.success {
      assert r.db.departments[|db.departments|].subject == subject;
    }
  }

  predicate IsCourse(c: Course, subject: string, number: nat) {
    c.subject == subject && c.number == number
  }

  predicate HasCourse(cs: seq<Course>, subject: string, number: nat) {
    exists k :: 0 <= k < |cs| && IsCourse(cs[k], subject, number)
  }

  /** Adds course (subject, number); fails, changing nothing, when it exists. */
  function CreateCourse(db: Db, subject: string, number: nat, name: string): (r: Response)
    ensures r.success <==> !HasCourse(db.courses, subject, number)
    ensures !r.success ==> r.db == db
    ensures r.success ==>
      |r.db.courses| == |db.courses| + 1
      && r.db == db.(courses := db.courses + [r.db.courses[|db.courses|]])
    ensures r.success ==>
      var added := r.db.courses[|db.courses|];
      IsCourse(added, subject, number) && added.name == name
      && forall k :: 0 <= k < |db.courses| ==> db.courses[k].catalogId < added.catalogId
  {
    if HasCourse(db.courses, subject, number) then Response(false, db)
    else
      var id := NextId(db.courses, (c: Course) => c.catalogId);
      Response(true, db.(courses := db.courses + [Course(id, subject, number, name)]))
  }

  /** Creating a course keeps (subject, number) unique, and afterwards the
      course exists. */
  lemma CreateCourseKeepsCoursesUnique(db: Db, subject: string, number: nat, name: string)
    requires CourseKeysUnique(db.courses)
    ensures var r := CreateCourse(db, subject, number, name);
      CourseKeysUnique(r.db.courses) && HasCourse(r.db.courses, subject, number)
  {
    var r := CreateCourse(db, subject, number, name);
    if r.success {
      assert IsCourse(r.db.courses[|db.courses|], subject, number);
    }
  }

  datatype Rejection = UnknownCourse | DuplicateOffering | LocationConflict

  /** The outcome of validating a new offering: the catalog id of the course
      to offer, or the first check that failed. */
  datatype Verdict = Accept(catalogId: Id) | Reject(reason: Rejection)

  predicate OfferedIn(cls: seq<Class>, catalogId: Id, season: string, year: nat) {
    exists k :: 0 <= k < |cls| && cls[k].listing == catalogId && cls[k].season == season && cls[k].year == year
  }

  /** Does an offering in `location` during (season, year) overlap the
      times of day [start, end)? */
  predicate RoomTaken(cls: seq<Class>, season: string, year: nat, location: string, start: nat, end: nat) {
    exists k :: 0 <= k < |cls| && cls[k].season == season && cls[k].year == year && cls[k].location == location
      && Overlaps(start, end, cls[k].startTime, cls[k].endTime)
  }

  /** The checks made before an offering is created, in the controller's
      order: the course exists, it has no offering in the semester yet, and
      no offering in the same location and semester overlaps the new times
      of day. */
  function ValidateNewOffering(db: Db, subject: string, number: nat, season: string, year: nat,
                               start: nat, end: nat, location: string): (v: Verdict)
    ensures v == Reject(UnknownCourse) <==> !HasCourse(db.courses, subject, number)
    ensures v.Accept? ==>
      (exists k :: 0 <= k < |db.courses| && IsCourse(db.courses[k], subject, number)
                   && db.courses[k].catalogId == v.catalogId)
      && !OfferedIn(db.classes, v.catalogId, season, year)
      && !RoomTaken(db.classes, season, year, location, TimeOfDay(start), TimeOfDay(end))
    ensures v == Reject(DuplicateOffering) ==>
      exists k :: 0 <= k < |db.courses| && IsCourse(db.courses[k], subject, number)
                  && OfferedIn(db.classes, db.courses[k].catalogId, season, year)
    ensures v == Reject(LocationConflict) ==>
      RoomTaken(db.classes, season, year, location, TimeOfDay(start), TimeOfDay(end))
  {
    match FirstIndex(db.courses, (c: Course) => IsCourse(c, subject, number))
    case None => Reject(UnknownCourse)
    case Some(k) =>
      var catalogId := db.courses[k].catalogId;
      if OfferedIn(db.classes, catalogId, season, year) then Reject(DuplicateOffering)
      else if RoomTaken(db.classes, season, year, location, TimeOfDay(start), TimeOfDay(end)) then Reject(LocationConflict)
      else Accept(catalogId)
  }

  /** A second offering of a course in a semester is rejected wherever and
      whenever it would meet, as long as courses are unique. */
  lemma SecondOfferingIsRejected(db: Db, subject: string, number: nat, season: string, year: nat,
                                 start: nat, end: nat, location: string, k: nat)
    requires CourseKeysUnique(db.courses)
    requires k < |db.courses| && IsCourse(db.courses[k], subject, number)
    requires OfferedIn(db.classes, db.courses[k].catalogId, season, year)
    ensures ValidateNewOffering(db, subject, number, season, year, start, end, location) == Reject(DuplicateOffering)
  {
  }

  /** A known course without an offering in the semester is rejected for
      its location exactly when an offering in the same location and
      semester overlaps the new times of day. */
  lemma RoomConflictIsRejected(db: Db, subject: string, number: nat, season: string, year: nat,
                               start: nat, end: nat, location: string)
    requires CourseKeysUnique(db.courses) && HasCourse(db.courses, subject, number)
    requires forall k :: 0 <= k < |db.courses| && IsCourse(db.courses[k], subject, number) ==>
      !OfferedIn(db.classes, db.courses[k].catalogId, season, year)
    ensures ValidateNewOffering(db, subject, number, season, year, start, end, location) == Reject(LocationConflict)
            <==> RoomTaken(db.classes, season, year, location, TimeOfDay(start), TimeOfDay(end))
  {
  }

  /** Creates the offering when it passes validation, storing the times of
      day of `start` and `end`; otherwise fails, changing nothing. */
  function CreateClass(db: Db, subject: string, number: nat, season: string, year: nat,
                       start: nat, end: nat, location: string, instructor: string): (r: Response)
    ensures r.success <==> ValidateNewOffering(db, subject, number, season, year, start, end, location).Accept?
    ensures !r.success ==> r.db == db
    ensures r.success ==>
      |r.db.classes| == |db.classes| + 1
      && r.db == db.(classes := db.classes + [r.db.classes[|db.classes|]])
    ensures r.success ==>
      var added := r.db.classes[|db.classes|];
      added.listing == ValidateNewOffering(db, subject, number, season, year, start, end, location).catalogId
      && added.season == season && added.year == year && added.location == location
      && added.startTime == TimeOfDay(start) && added.endTime == TimeOfDay(end)
      && added.taughtBy == instructor
      && forall k :: 0 <= k < |db.classes| ==> db.classes[k].classId < added.classId
  {
    match ValidateNewOffering(db, subject, number, season, year, start, end, location)
    case Reject(_) => Response(false, db)
    case Accept(catalogId) =>
      var id := NextId(db.classes, (c: Class) => c.classId);
      var added := Class(id, catalogId, season, year, location, TimeOfDay(start), TimeOfDay(end), instructor);
      Response(true, db.(classes := db.classes + [added]))
  }

  /** Creating an offering keeps class ids unique, one offering per course
      and semester, and no two offerings overlapping in one location and
      semester. */
  lemma CreateClassKeepsSchedule(db: Db, subject: string, number: nat, season: string, year: nat,
                                 start: nat, end: nat, location: string, instructor: string)
    requires ClassIdsUnique(db.classes) && OneOfferingPerSemester(db.classes) && NoRoomConflicts(db.classes)
    ensures var cls := CreateClass(db, subject, number, season, year, start, end, location, instructor).db.classes;
      ClassIdsUnique(cls) && OneOfferingPerSemester(cls) && NoRoomConflicts(cls)
  {
    var r := CreateClass(db, subject, number, season, year, start, end, location, instructor);
    if r.success {
      var cls := r.db.classes;
      var n := |db.classes|;
      var added := cls[n];
      forall i, j | 0 <= i < |cls| && 0 <= j < |cls| && i != j && SameRoomAndSemester(cls[i], cls[j])
        ensures !Overlaps(cls[i].startTime, cls[i].endTime, cls[j].startTime, cls[j].endTime)
      {
        if i == n {
          assert !Overlaps(added.startTime, added.endTime, cls[j].startTime, cls[j].endTime);
        } else if j == n {
          assert !Overlaps(added.startTime, added.endTime, cls[i].startTime, cls[i].endTime);
        }
      }
      forall i, j | 0 <= i < |cls| && 0 <= j < |cls| && i != j
        ensures cls[i].listing != cls[j].listing || cls[i].season != cls[j].season || cls[i].year != cls[j].year
      {
        if i == n {
          assert cls[j] == db.classes[j];
        } else if j == n {
          assert cls[i] == db.classes[i];
        }
      }
    }
  }
}

=== FILE: as_written.dfy ===
/** The grade recomputation as the controller evaluates it in doubles, up
    to rounding, including its division by a category's total of 0 points.

    Every quantity in the computation is non-negative, so the doubles it can
    reach are finite non-negative values, +Infinity and NaN: x / 0 is
    +Infinity for x > 0 and NaN for x = 0, +Infinity * 0 is NaN, NaN absorbs
    every sum, and every comparison with NaN is false. Rounding is not
    modelled: finite values are exact reals. */
module AsWritten {
  import opened Base
  import opened Schema
  import opened LetterScale
  import opened Grading

  datatype Double = Finite(v: real) | PosInf | NaN

  /** `a / b` for non-negative `a` and `b`. */
  function Div(a: real, b: real): (r: Double)
    requires a >= 0.0 && b >= 0.0
    ensures b > 0.0 ==> r == Finite(a / b)
    ensures b == 0.0 ==> (r == NaN <==> a == 0.0) && (r == PosInf <==> a > 0.0)
  {
    if b > 0.0 then Finite(a / b) else if a > 0.0 then PosInf else NaN
  }

  /** `x * w` for a non-negative weight `w`. */
  function Times(x: Double, w: real): Double
    requires w >= 0.0
  {
    match x
    case Finite(v) => Finite(v * w)
    case PosInf => if w > 0.0 then PosInf else NaN
    case NaN => NaN
  }

  function Plus(x: Double, y: Double): Double
  {
    if x.NaN? || y.NaN? then NaN
    else if x.PosInf? || y.PosInf? then PosInf
    else Finite(x.v + y.v)
  }

  /** `x >= t`, false when `x` is NaN. */
  predicate AtLeast(x: Double, t: real) {
    match x
    case Finite(v) => v >= t
    case PosInf => true
    case NaN => false
  }

  /** The letter conversion evaluated on a double. */
  function ConvertDouble(x: Double): (g: string)
    ensures x.Finite? ==> g == ConvertToLetterGrade(x.v)
    ensures x.PosInf? ==> g == "A"
    ensures x.NaN? ==> g == Failing
  {
    if AtLeast(x, 93.0) then "A"
    else if AtLeast(x, 90.0) then "A-"
    else if AtLeast(x, 87.0) then "B+"
    else if AtLeast(x, 83.0) then "B"
    else if AtLeast(x, 80.0) then "B-"
    else if AtLeast(x, 77.0) then "C+"
    else if AtLeast(x, 73.0) then "C"
    else if AtLeast(x, 70.0) then "C-"
    else if AtLeast(x, 67.0) then "D+"
    else if AtLeast(x, 63.0) then "D"
    else if AtLeast(x, 60.0) then "D-"
    else "E"
  }

  /** What category `c` adds to the running sum: earned / max * weight,
      dividing even when max is 0. */
  function ContributionAsWritten(asgs: seq<Assignment>, subs: seq<Submission>, c: Category, student: string): Double
  {
    Times(Div(Earned(asgs, subs, c.categoryId, student) as real, CategoryMax(asgs, c.categoryId) as real), c.weight as real)
  }

  function ScaledAsWritten(asgs: seq<Assignment>, subs: seq<Submission>, cats: seq<Category>, student: string): Double
  {
    if |cats| == 0 then Finite(0.0)
    else Plus(ContributionAsWritten(asgs, subs, cats[0], student), ScaledAsWritten(asgs, subs, cats[1..], student))
  }

  function PercentAsWritten(db: Db, classId: Id, student: string): Double
  {
    var cats := ClassCategories(db.categories, classId);
    var total := TotalWeight(cats);
    if total > 0 then
      match ScaledAsWritten(db.assignments, db.submissions, cats, student)
      case Finite(v) => Finite(v / total as real * 100.0)
      case PosInf => PosInf
      case NaN => NaN
    else Finite(0.0)
  }

  /** A category's term is NaN exactly when it is worth 0 points and the
      student earned nothing in it or it weighs 0, and +Infinity exactly
      when it is worth 0 points, the student earned something and it weighs
      more than 0. */
  lemma ContributionAsWrittenCases(asgs: seq<Assignment>, subs: seq<Submission>, c: Category, student: string)
    ensures ContributionAsWritten(asgs, subs, c, student) == NaN <==>
      CategoryMax(asgs, c.categoryId) == 0 && (Earned(asgs, subs, c.categoryId, student) == 0 || c.weight == 0)
    ensures ContributionAsWritten(asgs, subs, c, student) == PosInf <==>
      CategoryMax(asgs, c.categoryId) == 0 && Earned(asgs, subs, c.categoryId, student) > 0 && c.weight > 0
  {
  }

  /** The running sum is NaN exactly when some category's term is NaN, and
      +Infinity exactly when none is NaN and some is +Infinity. */
  lemma {:induction false} ScaledAsWrittenCases(asgs: seq<Assignment>, subs: seq<Submission>,
                                                cats: seq<Category>, student: string)
    ensures ScaledAsWritten(asgs, subs, cats, student) == NaN <==>
      exists k :: 0 <= k < |cats| && ContributionAsWritten(asgs, subs, cats[k], student) == NaN
    ensures ScaledAsWritten(asgs, subs, cats, student) == PosInf <==>
      (forall k :: 0 <= k < |cats| ==> ContributionAsWritten(asgs, subs, cats[k], student) != NaN)
      && exists k :: 0 <= k < |cats| && ContributionAsWritten(asgs, subs, cats[k], student) == PosInf
  {
    if |cats| > 0 {
      ScaledAsWrittenCases(asgs, subs, cats[1..], student);
      assert forall k :: 0 < k < |cats| ==> cats[k] == cats[1..][k - 1];
      assert forall k :: 0 <= k < |cats[1..]| ==> cats[1..][k] == cats[k + 1];
    }
  }

  /** The letter the controller stores for `student` in class `classId`. */
  function GradeAsWritten(db: Db, classId: Id, student: string): string
  {
    ConvertDouble(PercentAsWritten(db, classId, student))
  }

  lemma {:induction false} ScaledAgreesWhenNoEmptyCategory(asgs: seq<Assignment>, subs: seq<Submission>,
                                                           cats: seq<Category>, student: string)
    requires forall k :: 0 <= k < |cats| ==> CategoryMax(asgs, cats[k].categoryId) > 0
    ensures ScaledAsWritten(asgs, subs, cats, student) == Finite(Scaled(asgs, subs, cats, student))
  {
    if |cats| > 0 {
      assert forall k :: 0 <= k < |cats[1..]| ==> cats[1..][k] == cats[k + 1];
      ScaledAgreesWhenNoEmptyCategory(asgs, subs, cats[1..], student);
      ContributionAgrees(asgs, subs, cats[0], student);
    }
  }

  /** A category worth some points contributes the same in doubles. */
  lemma ContributionAgrees(asgs: seq<Assignment>, subs: seq<Submission>, c: Category, student: string)
    requires CategoryMax(asgs, c.categoryId) > 0
    ensures ContributionAsWritten(asgs, subs, c, student) == Finite(Contribution(asgs, subs, c, student))
  {
  }

  lemma {:induction false} WeightAtMostTotal(cats: seq<Category>, k: nat)
    requires k < |cats|
    ensures cats[k].weight <= TotalWeight(cats)
  {
    if k > 0 {
      WeightAtMostTotal(cats[1..], k - 1);
    }
  }

  /** As written, a +Infinity sum (by `ScaledAsWrittenCases`: no category
      gives NaN and some category worth 0 points, weighing more than 0,
      holds earned points) is graded "A"; a NaN sum is graded "E". */
  lemma InfiniteOrNaNSum(db: Db, classId: Id, student: string)
    ensures var cats := ClassCategories(db.categories, classId);
      ScaledAsWritten(db.assignments, db.submissions, cats, student) == PosInf
      ==> GradeAsWritten(db, classId, student) == "A"
    ensures var cats := ClassCategories(db.categories, classId);
      ScaledAsWritten(db.assignments, db.submissions, cats, student) == NaN
      ==> GradeAsWritten(db, classId, student) == Failing
  {
    var cats := ClassCategories(db.categories, classId);
    if ScaledAsWritten(db.assignments, db.submissions, cats, student) == PosInf {
      ScaledAsWrittenCases(db.assignments, db.submissions, cats, student);
      var k :| 0 <= k < |cats| && ContributionAsWritten(db.assignments, db.submissions, cats[k], student) == PosInf;
      ContributionAsWrittenCases(db.assignments, db.submissions, cats[k], student);
      WeightAtMostTotal(cats, k);
    }
  }

  /** Where no category of the class is worth 0 points, the controller's
      doubles and the model agree on every student's grade. */
  lemma AgreesWhenNoEmptyCategory(db: Db, classId: Id, student: string)
    requires forall c :: c in ClassCategories(db.categories, classId) ==> CategoryMax(db.assignments, c.categoryId) > 0
    ensures GradeAsWritten(db, classId, student) == ConvertToLetterGrade(Percent(db, classId, student))
  {
    var cats := ClassCategories(db.categories, classId);
    assert forall k :: 0 <= k < |cats| ==> cats[k] in cats;
    ScaledAgreesWhenNoEmptyCategory(db.assignments, db.submissions, cats, student);
  }

  /** A category without assignments is worth 0 points ... */
  lemma {:induction false} NoAssignmentsNoPoints(asgs: seq<Assignment>, catId: Id)
    requires forall j :: 0 <= j < |asgs| ==> asgs[j].category != catId
    ensures CategoryMax(asgs, catId) == 0
  {
    if |asgs| > 0 {
      NoAssignmentsNoPoints(asgs[1..], catId);
    }
  }

  /** ... and has nothing to earn. */
  lemma {:induction false} NoAssignmentsNothingEarned(asgs: seq<Assignment>, subs: seq<Submission>, catId: Id, student: string)
    requires forall j :: 0 <= j < |asgs| ==> asgs[j].category != catId
    ensures Earned(asgs, subs, catId, student) == 0
  {
    if |subs| > 0 {
      NoAssignmentsNothingEarned(asgs, subs[1..], catId, student);
    }
  }

  lemma {:induction false} EmptyCategoryGivesNaN(asgs: seq<Assignment>, subs: seq<Submission>,
                                                 cats: seq<Category>, student: string, k: nat)
    requires k < |cats|
    requires forall j :: 0 <= j < |asgs| ==> asgs[j].category != cats[k].categoryId
    ensures ScaledAsWritten(asgs, subs, cats, student) == NaN
  {
    if k == 0 {
      NoAssignmentsNoPoints(asgs, cats[0].categoryId);
      NoAssignmentsNothingEarned(asgs, subs, cats[0].categoryId, student);
    } else {
      EmptyCategoryGivesNaN(asgs, subs, cats[1..], student, k - 1);
    }
  }

  /** As written, one category without assignments makes every student of
      the class fail, whatever they scored elsewhere. */
  lemma EmptyCategoryFailsEveryone(db: Db, classId: Id, student: string, c: Category)
    requires c in ClassCategories(db.categories, classId)
    requires forall j :: 0 <= j < |db.assignments| ==> db.assignments[j].category != c.categoryId
    ensures GradeAsWritten(db, classId, student) == Failing
  {
    var cats := ClassCategories(db.categories, classId);
    var k :| 0 <= k < |cats| && cats[k] == c;
    EmptyCategoryGivesNaN(db.assignments, db.submissions, cats, student, k);
  }
}

=== FILE: base.dfy ===
/** Small building blocks shared by every module: an optional value, database
    identity values, and the first-match searches that the controllers perform
    with LINQ's `FirstOrDefault` and `Any`. */
module Base {

  datatype Option<T> = None | Some(value: T)

  /** A database identity value. Identity columns start at 1, which is why the
      controllers may use 0 as their "not found" sentinel; in this model the
      sentinel is `None`. */
  type Id = n: nat | n > 0 witness 1

  /** Index of the first element of `s` satisfying `p`. */
  function FirstIndex<T>(s: seq<T>, p: T -> bool): (r: Option<nat>)
    ensures r.Some? ==> r.value < |s| && p(s[r.value])
    ensures r.Some? ==> forall j :: 0 <= j < r.value ==> !p(s[j])
    ensures r.None? <==> forall j :: 0 <= j < |s| ==> !p(s[j])
  {
    if |s| == 0 then None
    else if p(s[0]) then Some(0)
    else match FirstIndex(s[1..], p)
      case None => None
      case Some(k) => Some(k + 1)
  }

  /** First pair of a nested-loop join of `xs` (outer) with `ys` (inner)
      satisfying `p`, as a `from x in xs join y in ys ... select` query
      followed by `FirstOrDefault` evaluates. */
  function JoinFirst<A, B>(xs: seq<A>, ys: seq<B>, p: (A, B) -> bool): (r: Option<(nat, nat)>)
    ensures r.Some? ==> r.value.0 < |xs| && r.value.1 < |ys| && p(xs[r.value.0], ys[r.value.1])
    ensures r.None? <==> forall i, j :: 0 <= i < |xs| && 0 <= j < |ys| ==> !p(xs[i], ys[j])
  {
    if |xs| == 0 then None
    else match FirstIndex(ys, (y: B) => p(xs[0], y))
      case Some(j) => Some((0, j))
      case None =>
        match JoinFirst(xs[1..], ys, p)
        case None => None
        case Some(ij) => Some((ij.0 + 1, ij.1))
  }

  /** An identity value larger than the key of every row: what the database
      hands out for the next inserted row. */
  function NextId<T>(rows: seq<T>, key: T -> Id): (id: Id)
    ensures forall i :: 0 <= i < |rows| ==> key(rows[i]) < id
  {
    if |rows| == 0 then 1
    else
      var rest := NextId(rows[1..], key);
      if key(rows[0]) < rest then rest else key(rows[0]) + 1
  }
}

=== FILE: grading.dfy ===
/** The grade recomputation run after grading data of a class changes: each
    enrolled student's weighted percentage over the class's assignment
    categories, converted to a letter and stored in the enrollment.

    Policy for a category whose assignments are worth 0 points in total (it
    has none, or only 0-point ones): it adds nothing to the student's earned
    sum, but its weight still counts in the total weight. The source divides
    by that zero instead; `AsWritten` models what that does. */
module Grading {
  import opened Base
  import opened Schema
  import opened LetterScale

  /** The categories of class `classId`, in table order. */
  function ClassCategories(cats: seq<Category>, classId: Id): (r: seq<Category>)
    ensures forall c :: c in r <==> c in cats && c.inClass == classId
  {
    if |cats| == 0 then []
    else (if cats[0].inClass == classId then [cats[0]] else []) + ClassCategories(cats[1..], classId)
  }

  /** Sum of the maximum points of the assignments in category `catId`. */
  function CategoryMax(asgs: seq<Assignment>, catId: Id): nat
  {
    if |asgs| == 0 then 0
    else (if asgs[0].category == catId then asgs[0].maxPoints else 0) + CategoryMax(asgs[1..], catId)
  }

  /** The category of assignment `asgId`, if the assignment exists. */
  function CategoryOf(asgs: seq<Assignment>, asgId: Id): (r: Option<Id>)
    ensures r.Some? <==> exists k :: 0 <= k < |asgs| && asgs[k].assignmentId == asgId
    ensures r.Some? ==> exists k :: 0 <= k < |asgs| && asgs[k].assignmentId == asgId && asgs[k].category == r.value
  {
    match FirstIndex(asgs, (a: Assignment) => a.assignmentId == asgId)
    case None => None
    case Some(k) => Some(asgs[k].category)
  }

  /** Does submission `s` count towards `student`'s score in category `catId`? */
  predicate CountsFor(asgs: seq<Assignment>, s: Submission, catId: Id, student: string) {
    s.student == student && CategoryOf(asgs, s.assignment) == Some(catId)
  }

  /** Sum of the scores of `student`'s submissions to assignments in category
      `catId`; a missing submission contributes nothing. */
  function Earned(asgs: seq<Assignment>, subs: seq<Submission>, catId: Id, student: string): nat
  {
    if |subs| == 0 then 0
    else (if CountsFor(asgs, subs[0], catId, student) then subs[0].score else 0)
         + Earned(asgs, subs[1..], catId, student)
  }

  function TotalWeight(cats: seq<Category>): nat
  {
    if |cats| == 0 then 0 else cats[0].weight + TotalWeight(cats[1..])
  }

  /** What category `c` adds to `student`'s weighted sum. */
  function Contribution(asgs: seq<Assignment>, subs: seq<Submission>, c: Category, student: string): (r: real)
    ensures r >= 0.0
    ensures CategoryMax(asgs, c.categoryId) == 0 ==> r == 0.0
    ensures Earned(asgs, subs, c.categoryId, student) <= CategoryMax(asgs, c.categoryId) ==> r <= c.weight as real
  {
    var max := CategoryMax(asgs, c.categoryId);
    if max == 0 then 0.0
    else
      var earned := Earned(asgs, subs, c.categoryId, student);
      FractionOfWeight(earned as real, max as real, c.weight as real);
      earned as real / max as real * c.weight as real
  }

  /** A share of at most the whole of a weight is at most the weight. */
  lemma FractionOfWeight(earned: real, max: real, weight: real)
    requires 0.0 <= earned && 0.0 < max && 0.0 <= weight
    ensures 0.0 <= earned / max * weight
    ensures earned <= max ==> earned / max * weight <= weight
  {
    var fraction := earned / max;
    assert fraction * max == earned;
    if earned <= max {
      assert fraction <= 1.0;
      assert fraction * weight <= 1.0 * weight;
    }
  }

  /** `student`'s weighted sum over the categories `cats`. */
  function Scaled(asgs: seq<Assignment>, subs: seq<Submission>, cats: seq<Category>, student: string): (r: real)
    ensures r >= 0.0
  {
    if |cats| == 0 then 0.0
    else Contribution(asgs, subs, cats[0], student) + Scaled(asgs, subs, cats[1..], student)
  }

  /** `student`'s final percentage in class `classId`: the weighted sum over
      the total weight, times 100, or 0 when the total weight is 0. */
  function Percent(db: Db, classId: Id, student: string): (r: real)
    ensures r >= 0.0
    ensures TotalWeight(ClassCategories(db.categories, classId)) == 0 ==> r == 0.0
  {
    var cats := ClassCategories(db.categories, classId);
    var total := TotalWeight(cats);
    if total > 0 then Scaled(db.assignments, db.submissions, cats, student) / total as real * 100.0
    else 0.0
  }

  /** Regrades every enrollment in class `classId`. Only the grade of those
      enrollments changes: every other table, every enrollment of another
      class, and the student and class of every enrollment stay as they were. */
  function UpdateClassGrades(db: Db, classId: Id): (r: Db)
    ensures r == db.(enrollments := r.enrollments)
    ensures |r.enrollments| == |db.enrollments|
    ensures forall i :: 0 <= i < |db.enrollments| ==>
      r.enrollments[i].student == db.enrollments[i].student
      && r.enrollments[i].classId == db.enrollments[i].classId
    ensures forall i :: 0 <= i < |db.enrollments| && db.enrollments[i].classId != classId ==>
      r.enrollments[i] == db.enrollments[i]
    ensures forall i :: 0 <= i < |db.enrollments| && db.enrollments[i].classId == classId ==>
      r.enrollments[i].grade == ConvertToLetterGrade(Percent(db, classId, db.enrollments[i].student))
  {
    var es := db.enrollments;
    db.(enrollments := seq(|es|, i requires 0 <= i < |es| =>
      if es[i].classId == classId
      then es[i].(grade := ConvertToLetterGrade(Percent(db, classId, es[i].student)))
      else es[i]))
  }

  /** Percentages read only categories, assignments and submissions, so a
      state that agrees on those tables gives every student the same one. */
  lemma PercentReadsGradingTables(db: Db, db': Db, classId: Id, student: string)
    requires db'.categories == db.categories && db'.assignments == db.assignments
    requires db'.submissions == db.submissions
    ensures Percent(db', classId, student) == Percent(db, classId, student)
  {
  }

  /** Recomputing twice in a row gives the same state as recomputing once. */
  lemma UpdateClassGradesIsIdempotent(db: Db, classId: Id)
    ensures UpdateClassGrades(UpdateClassGrades(db, classId), classId) == UpdateClassGrades(db, classId)
  {
    var once := UpdateClassGrades(db, classId);
    var twice := UpdateClassGrades(once, classId);
    forall i | 0 <= i < |db.enrollments|
      ensures twice.enrollments[i] == once.enrollments[i]
    {
      PercentReadsGradingTables(db, once, classId, db.enrollments[i].student);
    }
    assert twice.enrollments == once.enrollments;
  }

  /** When the categories of a class weigh 0 in total, every student enrolled
      in it is graded with the failing letter. */
  lemma ZeroTotalWeightFailsEveryone(db: Db, classId: Id)
    requires TotalWeight(ClassCategories(db.categories, classId)) == 0
    ensures forall i :: 0 <= i < |db.enrollments| && db.enrollments[i].classId == classId ==>
      UpdateClassGrades(db, classId).enrollments[i].grade == Failing
  {
  }

  /** A student with no submission in a category earns nothing in it,
      whatever they submitted to other categories. */
  lemma {:induction false} NoSubmissionsEarnNothing(asgs: seq<Assignment>, subs: seq<Submission>, catId: Id, student: string)
    requires forall k :: 0 <= k < |subs| ==> !CountsFor(asgs, subs[k], catId, student)
    ensures Earned(asgs, subs, catId, student) == 0
  {
    if |subs| > 0 {
      NoSubmissionsEarnNothing(asgs, subs[1..], catId, student);
    }
  }

  lemma {:induction false} NothingEarnedScalesToZero(asgs: seq<Assignment>, subs: seq<Submission>, cats: seq<Category>, student: string)
    requires forall k :: 0 <= k < |subs| ==> subs[k].student != student
    ensures Scaled(asgs, subs, cats, student) == 0.0
  {
    if |cats| > 0 {
      NoSubmissionsEarnNothing(asgs, subs, cats[0].categoryId, student);
      NothingEarnedScalesToZero(asgs, subs, cats[1..], student);
    }
  }

  /** A student who submitted nothing gets 0 percent and the failing letter;
      missing submissions never make the computation fail. */
  lemma NoSubmissionsFail(db: Db, classId: Id, student: string)
    requires forall k :: 0 <= k < |db.submissions| ==> db.submissions[k].student != student
    ensures Percent(db, classId, student) == 0.0
    ensures ConvertToLetterGrade(Percent(db, classId, student)) == Failing
  {
    NothingEarnedScalesToZero(db.assignments, db.submissions, ClassCategories(db.categories, classId), student);
  }

  /** Does `student` score no more than the maximum in each of `cats`? */
  predicate ScoresCapped(asgs: seq<Assignment>, subs: seq<Submission>, cats: seq<Category>, student: string) {
    forall k :: 0 <= k < |cats| ==>
      Earned(asgs, subs, cats[k].categoryId, student) <= CategoryMax(asgs, cats[k].categoryId)
  }

  lemma {:induction false} CappedScaledAtMostWeight(asgs: seq<Assignment>, subs: seq<Submission>, cats: seq<Category>, student: string)
    requires ScoresCapped(asgs, subs, cats, student)
    ensures Scaled(asgs, subs, cats, student) <= TotalWeight(cats) as real
  {
    if |cats| > 0 {
      assert ScoresCapped(asgs, subs, cats[1..], student) by {
        forall k | 0 <= k < |cats[1..]|
          ensures Earned(asgs, subs, cats[1..][k].categoryId, student) <= CategoryMax(asgs, cats[1..][k].categoryId)
        {
          assert cats[1..][k] == cats[k + 1];
        }
      }
      CappedScaledAtMostWeight(asgs, subs, cats[1..], student);
    }
  }

  /** Scores are not clamped to the maximum, so only a student who never
      scores above it in any category is guaranteed at most 100 percent. */
  lemma CappedPercentAtMost100(db: Db, classId: Id, student: string)
    requires ScoresCapped(db.assignments, db.submissions, ClassCategories(db.categories, classId), student)
    ensures Percent(db, classId, student) <= 100.0
  {
    var cats := ClassCategories(db.categories, classId);
    CappedScaledAtMostWeight(db.assignments, db.submissions, cats, student);
    var total := TotalWeight(cats);
    if total > 0 {
      var s := Scaled(db.assignments, db.submissions, cats, student);
      assert s / total as real <= 1.0;
    }
  }

  /** Total weight of the categories that hold some points. */
  function GradedWeight(asgs: seq<Assignment>, cats: seq<Category>): (r: nat)
    ensures r <= TotalWeight(cats)
  {
    if |cats| == 0 then 0
    else (if CategoryMax(asgs, cats[0].categoryId) > 0 then cats[0].weight else 0) + GradedWeight(asgs, cats[1..])
  }

  /** Does `student` score exactly the maximum in each of `cats`? */
  predicate FullMarks(asgs: seq<Assignment>, subs: seq<Submission>, cats: seq<Category>, student: string) {
    forall k :: 0 <= k < |cats| ==>
      Earned(asgs, subs, cats[k].categoryId, student) == CategoryMax(asgs, cats[k].categoryId)
  }

  /** Full marks in a category that has points contribute its whole weight. */
  lemma FullMarksContribution(asgs: seq<Assignment>, subs: seq<Submission>, c: Category, student: string)
    requires Earned(asgs, subs, c.categoryId, student) == CategoryMax(asgs, c.categoryId)
    ensures Contribution(asgs, subs, c, student)
            == if CategoryMax(asgs, c.categoryId) > 0 then c.weight as real else 0.0
  {
    var max := CategoryMax(asgs, c.categoryId);
    if max > 0 {
      SelfQuotient(max as real);
    }
  }

  lemma SelfQuotient(x: real)
    requires x > 0.0
    ensures x / x == 1.0
  {
  }

  lemma FullMarksOfTail(asgs: seq<Assignment>, subs: seq<Submission>, cats: seq<Category>, student: string)
    requires |cats| > 0 && FullMarks(asgs, subs, cats, student)
    ensures FullMarks(asgs, subs, cats[1..], student)
  {
    forall k | 0 <= k < |cats[1..]|
      ensures Earned(asgs, subs, cats[1..][k].categoryId, student) == CategoryMax(asgs, cats[1..][k].categoryId)
    {
      assert cats[1..][k] == cats[k + 1];
    }
  }

  lemma {:induction false} FullMarksScaleToGradedWeight(asgs: seq<Assignment>, subs: seq<Submission>, cats: seq<Category>, student: string)
    requires FullMarks(asgs, subs, cats, student)
    ensures Scaled(asgs, subs, cats, student) == GradedWeight(asgs, cats) as real
  {
    if |cats| > 0 {
      FullMarksOfTail(asgs, subs, cats, student);
      FullMarksScaleToGradedWeight(asgs, subs, cats[1..], student);
      FullMarksContribution(asgs, subs, cats[0], student);
    }
  }

  /** A student with full marks everywhere gets the share of the total weight
      held by categories that have points: 100 percent when every category
      has some, less when a category worth 0 points keeps its weight. */
  lemma FullMarksPercent(db: Db, classId: Id, student: string)
    requires FullMarks(db.assignments, db.submissions, ClassCategories(db.categories, classId), student)
    requires TotalWeight(ClassCategories(db.categories, classId)) > 0
    ensures Percent(db, classId, student) ==
      GradedWeight(db.assignments, ClassCategories(db.categories, classId)) as real
      / TotalWeight(ClassCategories(db.categories, classId)) as real * 100.0
  {
    FullMarksScaleToGradedWeight(db.assignments, db.submissions, ClassCategories(db.categories, classId), student);
  }
  /** The other reading of the recomputation: a category worth 0 points is
      dropped entirely, its weight included, so the percentage is taken over
      the weight of the categories that have points. */
  function PercentOverGraded(db: Db, classId: Id, student: string): (r: real)
    ensures r >= 0.0
    ensures GradedWeight(db.assignments, ClassCategories(db.categories, classId)) == 0 ==> r == 0.0
  {
    var cats := ClassCategories(db.categories, classId);
    var graded := GradedWeight(db.assignments, cats);
    if graded > 0 then Scaled(db.assignments, db.submissions, cats, student) / graded as real * 100.0
    else 0.0
  }

  /** Under that reading full marks are always 100 percent. */
  lemma FullMarksPercentOverGraded(db: Db, classId: Id, student: string)
    requires FullMarks(db.assignments, db.submissions, ClassCategories(db.categories, classId), student)
    requires GradedWeight(db.assignments, ClassCategories(db.categories, classId)) > 0
    ensures PercentOverGraded(db, classId, student) == 100.0
  {
    var cats := ClassCategories(db.categories, classId);
    FullMarksScaleToGradedWeight(db.assignments, db.submissions, cats, student);
    SelfQuotient(GradedWeight(db.assignments, cats) as real);
  }

  lemma {:induction false} AllGradedWeight(asgs: seq<Assignment>, cats: seq<Category>)
    requires forall k :: 0 <= k < |cats| ==> CategoryMax(asgs, cats[k].categoryId) > 0
    ensures GradedWeight(asgs, cats) == TotalWeight(cats)
  {
    if |cats| > 0 {
      assert forall k :: 0 <= k < |cats[1..]| ==> cats[1..][k] == cats[k + 1];
      AllGradedWeight(asgs, cats[1..]);
    }
  }

  /** The two readings differ only for classes with a category worth 0
      points. */
  lemma ReadingsAgreeWhenNoEmptyCategory(db: Db, classId: Id, student: string)
    requires forall c :: c in ClassCategories(db.categories, classId) ==> CategoryMax(db.assignments, c.categoryId) > 0
    ensures PercentOverGraded(db, classId, student) == Percent(db, classId, student)
  {
    var cats := ClassCategories(db.categories, classId);
    assert forall k :: 0 <= k < |cats| ==> cats[k] in cats;
    AllGradedWeight(db.assignments, cats);
  }

}

=== FILE: letter_scale.dfy ===
/** The fixed grading scale: percentage to letter (used when grades are
    recomputed) and letter to grade points (used for the GPA). */
module LetterScale {

  /** A band of the scale: percentages from `threshold` up earn `letter`,
      which is worth `points`. */
  datatype Band = Band(threshold: real, letter: string, points: real)

  /** The scale, best band first. A percentage earns the first band whose
      threshold it reaches; below the last threshold it earns `Failing`. */
  const Scale: seq<Band> := [
    Band(93.0, "A", 4.0), Band(90.0, "A-", 3.7), Band(87.0, "B+", 3.3),
    Band(83.0, "B", 3.0), Band(80.0, "B-", 2.7), Band(77.0, "C+", 2.3),
    Band(73.0, "C", 2.0), Band(70.0, "C-", 1.7), Band(67.0, "D+", 1.3),
    Band(63.0, "D", 1.0), Band(60.0, "D-", 0.7)
  ]

  const Failing: string := "E"

  /** The twelve letters a grade recomputation can produce, best first. */
  const Letters: seq<string> := ["A", "A-", "B+", "B", "B-", "C+", "C", "C-", "D+", "D", "D-", "E"]

  predicate IsLetter(g: string) {
    g in Letters
  }

  /** Percentage to letter, as the chain of inclusive lower bounds. */
  function ConvertToLetterGrade(pct: real): (g: string)
    ensures IsLetter(g)
  {
    if pct >= 93.0 then "A"
    else if pct >= 90.0 then "A-"
    else if pct >= 87.0 then "B+"
    else if pct >= 83.0 then "B"
    else if pct >= 80.0 then "B-"
    else if pct >= 77.0 then "C+"
    else if pct >= 73.0 then "C"
    else if pct >= 70.0 then "C-"
    else if pct >= 67.0 then "D+"
    else if pct >= 63.0 then "D"
    else if pct >= 60.0 then "D-"
    else "E"
  }

  /** Letter to grade points; anything that is not a passing letter of the
      scale (the failing letter, the placeholder, an empty grade) is worth 0. */
  function LetterToPoint(grade: string): (p: real)
    ensures 0.0 <= p <= 4.0
    ensures forall i :: 0 <= i < |Scale| && Scale[i].letter == grade ==> p == Scale[i].points
    ensures grade == Failing || grade !in Letters ==> p == 0.0
  {
    match grade
    case "A" => 4.0
    case "A-" => 3.7
    case "B+" => 3.3
    case "B" => 3.0
    case "B-" => 2.7
    case "C+" => 2.3
    case "C" => 2.0
    case "C-" => 1.7
    case "D+" => 1.3
    case "D" => 1.0
    case "D-" => 0.7
    case _ => 0.0
  }

  /** Reference reading of the scale: the letter of the first band, from
      band `k` on, whose threshold `pct` reaches. */
  function ScaleLetterFrom(pct: real, k: nat): (g: string)
    requires k <= |Scale|
    decreases |Scale| - k
  {
    if k == |Scale| then Failing
    else if pct >= Scale[k].threshold then Scale[k].letter
    else ScaleLetterFrom(pct, k + 1)
  }

  /** The chain of comparisons is exactly a lookup in the table. */
  lemma ConvertFollowsScale(pct: real)
    ensures ConvertToLetterGrade(pct) == ScaleLetterFrom(pct, 0)
  {
    // Dafny unrolls the table lookup through all eleven bands unaided.
  }

  /** Each band is exact: its letter is earned by precisely the percentages
      from its own threshold (inclusive) up to the next better threshold
      (exclusive). */
  lemma BandIsExact(pct: real, i: nat)
    requires i < |Scale|
    ensures ConvertToLetterGrade(pct) == Scale[i].letter <==>
      Scale[i].threshold <= pct && (i == 0 || pct < Scale[i - 1].threshold)
  {
  }

  /** The failing letter is earned by precisely the percentages below 60. */
  lemma FailingIsExact(pct: real)
    ensures ConvertToLetterGrade(pct) == Failing <==> pct < 60.0
  {
  }

  /** Position of a letter in the scale, best first; `Failing` ranks last. */
  function Rank(g: string): (r: nat)
    requires IsLetter(g)
    ensures r <= |Scale|
    ensures r < |Scale| ==> Scale[r].letter == g
    ensures r == |Scale| ==> g == Failing
  {
    if g == "A" then 0 else if g == "A-" then 1 else if g == "B+" then 2
    else if g == "B" then 3 else if g == "B-" then 4 else if g == "C+" then 5
    else if g == "C" then 6 else if g == "C-" then 7 else if g == "D+" then 8
    else if g == "D" then 9 else if g == "D-" then 10 else 11
  }

  /** A better-ranked letter is never worth fewer grade points. */
  lemma PointsFollowRank(g: string, h: string)
    requires IsLetter(g) && IsLetter(h)
    requires Rank(g) <= Rank(h)
    ensures LetterToPoint(h) <= LetterToPoint(g)
  {
  }

  /** A higher percentage never earns a worse letter, nor fewer grade points. */
  lemma ConvertIsMonotone(p: real, q: real)
    requires p <= q
    ensures Rank(ConvertToLetterGrade(q)) <= Rank(ConvertToLetterGrade(p))
    ensures LetterToPoint(ConvertToLetterGrade(p)) <= LetterToPoint(ConvertToLetterGrade(q))
  {
    PointsFollowRank(ConvertToLetterGrade(q), ConvertToLetterGrade(p));
  }

  /** Converting a band's own threshold gives the band's letter, and the
      letter converts back to the band's points: the two halves of the scale
      agree. */
  lemma ThresholdsRoundTrip(i: nat)
    requires i < |Scale|
    ensures ConvertToLetterGrade(Scale[i].threshold) == Scale[i].letter
    ensures LetterToPoint(ConvertToLetterGrade(Scale[i].threshold)) == Scale[i].points
  {
    BandIsExact(Scale[i].threshold, i);
  }
}

=== FILE: lookup.dfy ===
/** The lookups the controller actions start with: the class identified by
    (subject, number, season, year), an assignment of a class identified by
    its category and name, and a student's submission to an assignment. */
module Lookup {
  import opened Base
  import opened Schema

  /** Course `co` is (subject, num) and `cl` is its offering in (season, year). */
  predicate Offers(co: Course, cl: Class, subject: string, num: nat, season: string, year: nat) {
    co.catalogId == cl.listing && co.subject == subject && co.number == num
    && cl.season == season && cl.year == year
  }

  /** The id of the offering of course (subject, num) in (season, year), or
      `None` where the controller's helper answers its 0 sentinel. */
  function GetClassId(db: Db, subject: string, num: nat, season: string, year: nat): (r: Option<Id>)
    ensures r.None? <==>
      forall i, j :: 0 <= i < |db.courses| && 0 <= j < |db.classes| ==>
        !Offers(db.courses[i], db.classes[j], subject, num, season, year)
    ensures r.Some? ==>
      exists i, j :: 0 <= i < |db.courses| && 0 <= j < |db.classes|
        && Offers(db.courses[i], db.classes[j], subject, num, season, year)
        && db.classes[j].classId == r.value
  {
    match JoinFirst(db.courses, db.classes, (co, cl) => Offers(co, cl, subject, num, season, year))
    case None => None
    case Some(ij) => Some(db.classes[ij.1].classId)
  }

  /** While courses are unique by (subject, number) and offerings unique per
      (course, semester), the lookup finds exactly the matching offering. */
  lemma GetClassIdFindsTheOffering(db: Db, subject: string, num: nat, season: string, year: nat, i: nat, j: nat)
    requires CourseKeysUnique(db.courses) && OneOfferingPerSemester(db.classes)
    requires i < |db.courses| && j < |db.classes|
    requires Offers(db.courses[i], db.classes[j], subject, num, season, year)
    ensures GetClassId(db, subject, num, season, year) == Some(db.classes[j].classId)
  {
    var ij := JoinFirst(db.courses, db.classes, (co, cl) => Offers(co, cl, subject, num, season, year));
    assert ij.Some?;
    assert ij.value.0 == i;
    assert ij.value.1 == j;
  }

  /** Category `ac` of class `classId` is named `category` and holds assignment
      `a` named `asgname`. */
  predicate Holds(ac: Category, a: Assignment, classId: Id, category: string, asgname: string) {
    ac.categoryId == a.category && ac.inClass == classId && ac.name == category && a.name == asgname
  }

  /** The id of assignment `asgname` in category `category` of class `classId`,
      or `None` where the controllers read the 0 sentinel. */
  function FindAssignment(db: Db, classId: Id, category: string, asgname: string): (r: Option<Id>)
    ensures r.None? <==>
      forall i, j :: 0 <= i < |db.categories| && 0 <= j < |db.assignments| ==>
        !Holds(db.categories[i], db.assignments[j], classId, category, asgname)
    ensures r.Some? ==>
      exists i, j :: 0 <= i < |db.categories| && 0 <= j < |db.assignments|
        && Holds(db.categories[i], db.assignments[j], classId, category, asgname)
        && db.assignments[j].assignmentId == r.value
  {
    match JoinFirst(db.categories, db.assignments, (ac, a) => Holds(ac, a, classId, category, asgname))
    case None => None
    case Some(ij) => Some(db.assignments[ij.1].assignmentId)
  }

  /** While category names are unique per class and assignment names unique
      per category, the lookup finds exactly the matching assignment. */
  lemma FindAssignmentFindsTheAssignment(db: Db, classId: Id, category: string, asgname: string, i: nat, j: nat)
    requires CategoryNamesUnique(db.categories) && AssignmentNamesUnique(db.assignments)
    requires i < |db.categories| && j < |db.assignments|
    requires Holds(db.categories[i], db.assignments[j], classId, category, asgname)
    ensures FindAssignment(db, classId, category, asgname) == Some(db.assignments[j].assignmentId)
  {
    var ij := JoinFirst(db.categories, db.assignments, (ac, a) => Holds(ac, a, classId, category, asgname));
    assert ij.Some?;
    assert ij.value.0 == i;
    assert ij.value.1 == j;
  }

  predicate SubmissionOf(s: Submission, asg: Id, uid: string) {
    s.assignment == asg && s.student == uid
  }

  /** Position of the submission of `uid` to `asg`, if there is one. */
  function FindSubmission(subs: seq<Submission>, asg: Id, uid: string): (r: Option<nat>)
    ensures r.Some? ==> r.value < |subs| && SubmissionOf(subs[r.value], asg, uid)
    ensures r.None? <==> forall k :: 0 <= k < |subs| ==> !SubmissionOf(subs[k], asg, uid)
  {
    FirstIndex(subs, (s: Submission) => SubmissionOf(s, asg, uid))
  }
}

=== FILE: professor.dfy ===
/** The professor's actions that change grading data: creating assignment
    categories and assignments, and scoring a submission. */
module Professor {
  import opened Base
  import opened Schema
  import opened Lookup
  import opened Grading

  predicate HasCategory(cats: seq<Category>, classId: Id, name: string) {
    exists k :: 0 <= k < |cats| && cats[k].inClass == classId && cats[k].name == name
  }

  /** Adds category `category` of weight `catweight` to the class; fails,
      changing nothing, when the class is unknown or already has a category
      of that name. Grades are not recomputed. */
  function CreateAssignmentCategory(db: Db, subject: string, num: nat, season: string, year: nat,
                                    category: string, catweight: nat): (r: Response)
    ensures r.success <==>
      GetClassId(db, subject, num, season, year).Some?
      && !HasCategory(db.categories, GetClassId(db, subject, num, season, year).value, category)
    ensures !r.success ==> r.db == db
    ensures r.success ==>
      |r.db.categories| == |db.categories| + 1
      && r.db == db.(categories := db.categories + [r.db.categories[|db.categories|]])
    ensures r.success ==>
      var added := r.db.categories[|db.categories|];
      added.inClass == GetClassId(db, subject, num, season, year).value
      && added.name == category && added.weight == catweight
      && forall k :: 0 <= k < |db.categories| ==> db.categories[k].categoryId < added.categoryId
  {
    match GetClassId(db, subject, num, season, year)
    case None => Response(false, db)
    case Some(classId) =>
      if HasCategory(db.categories, classId, category) then Response(false, db)
      else
        var id := NextId(db.categories, (c: Category) => c.categoryId);
        Response(true, db.(categories := db.categories + [Category(id, classId, category, catweight)]))
  }

  /** Creating a category keeps category names unique within each class. */
  lemma CreateAssignmentCategoryKeepsNamesUnique(db: Db, subject: string, num: nat, season: string, year: nat,
                                                 category: string, catweight: nat)
    requires CategoryNamesUnique(db.categories)
    ensures CategoryNamesUnique(CreateAssignmentCategory(db, subject, num, season, year, category, catweight).db.categories)
  {
  }

  /** Adds assignment `asgname` to category `category` of the class and
      regrades the class; fails, changing nothing, when the class or the
      category is unknown or the category already has an assignment of that
      name. */
  function CreateAssignment(db: Db, subject: string, num: nat, season: string, year: nat, category: string,
                            asgname: string, asgpoints: nat, asgdue: nat, asgcontents: string): (r: Response)
    ensures var classId := GetClassId(db, subject, num, season, year);
      r.success <==>
        classId.Some? && HasCategory(db.categories, classId.value, category)
        && var k := FirstIndex(db.categories, (c: Category) => c.inClass == classId.value && c.name == category).value;
           !(exists j :: 0 <= j < |db.assignments| && db.assignments[j].category == db.categories[k].categoryId
                          && db.assignments[j].name == asgname)
    ensures !r.success ==> r.db == db
    ensures r.success ==>
      var classId := GetClassId(db, subject, num, season, year).value;
      exists a: Assignment ::
        a.name == asgname && a.maxPoints == asgpoints && a.due == asgdue && a.contents == asgcontents
        && (exists k :: 0 <= k < |db.categories| && db.categories[k].categoryId == a.category
              && db.categories[k].inClass == classId && db.categories[k].name == category)
        && (forall j :: 0 <= j < |db.assignments| ==> db.assignments[j].assignmentId < a.assignmentId)
        && r.db == UpdateClassGrades(db.(assignments := db.assignments + [a]), classId)
  {
    match GetClassId(db, subject, num, season, year)
    case None => Response(false, db)
    case Some(classId) =>
      match FirstIndex(db.categories, (c: Category) => c.inClass == classId && c.name == category)
      case None => Response(false, db)
      case Some(k) =>
        var ac := db.categories[k];
        if exists j :: 0 <= j < |db.assignments| && db.assignments[j].category == ac.categoryId
                       && db.assignments[j].name == asgname
        then Response(false, db)
        else
          var id := NextId(db.assignments, (a: Assignment) => a.assignmentId);
          var a := Assignment(id, ac.categoryId, asgname, asgcontents, asgdue, asgpoints);
          Response(true, UpdateClassGrades(db.(assignments := db.assignments + [a]), classId))
  }

  /** Creating an assignment keeps assignment names unique within each
      category. */
  lemma CreateAssignmentKeepsNamesUnique(db: Db, subject: string, num: nat, season: string, year: nat, category: string,
                                         asgname: string, asgpoints: nat, asgdue: nat, asgcontents: string)
    requires AssignmentNamesUnique(db.assignments)
    ensures AssignmentNamesUnique(CreateAssignment(db, subject, num, season, year, category,
                                                   asgname, asgpoints, asgdue, asgcontents).db.assignments)
  {
  }

  /** Sets the score of `uid`'s submission to `asg`, creating an empty
      submission stamped `now` when there is none. */
  function SetScore(subs: seq<Submission>, asg: Id, uid: string, score: nat, now: nat): (r: seq<Submission>)
    ensures exists k :: 0 <= k < |r| && SubmissionOf(r[k], asg, uid) && r[k].score == score
    ensures FindSubmission(subs, asg, uid).Some? ==> |r| == |subs|
    ensures FindSubmission(subs, asg, uid).None? ==>
      |r| == |subs| + 1 && r[|subs|] == Submission(asg, uid, now, score, "")
    ensures forall k :: 0 <= k < |subs| ==>
      r[k].assignment == subs[k].assignment && r[k].student == subs[k].student
      && r[k].time == subs[k].time && r[k].contents == subs[k].contents
    ensures forall k :: 0 <= k < |subs| && !SubmissionOf(subs[k], asg, uid) ==> r[k] == subs[k]
  {
    match FindSubmission(subs, asg, uid)
    case None =>
      var r := subs + [Submission(asg, uid, now, score, "")];
      assert SubmissionOf(r[|subs|], asg, uid);
      r
    case Some(k) =>
      var r := subs[k := subs[k].(score := score)];
      assert SubmissionOf(r[k], asg, uid);
      r
  }

  /** Scoring leaves exactly one submission of `uid` to `asg`, carrying the
      new score, and keeps submissions unique per (assignment, student). */
  lemma SetScoreLeavesOneScoredSubmission(subs: seq<Submission>, asg: Id, uid: string, score: nat, now: nat)
    requires SubmissionsUnique(subs)
    ensures var r := SetScore(subs, asg, uid, score, now);
      SubmissionsUnique(r)
      && forall k :: 0 <= k < |r| && SubmissionOf(r[k], asg, uid) ==> r[k].score == score
  {
  }

  /** Scores `uid`'s submission to assignment `asgname` of the class and
      regrades the class; fails, changing nothing, when the class or the
      assignment is unknown. */
  function GradeSubmission(db: Db, subject: string, num: nat, season: string, year: nat, category: string,
                           asgname: string, uid: string, score: nat, now: nat): (r: Response)
    ensures r.success <==>
      var classId := GetClassId(db, subject, num, season, year);
      classId.Some? && FindAssignment(db, classId.value, category, asgname).Some?
    ensures !r.success ==> r.db == db
    ensures r.success ==>
      var classId := GetClassId(db, subject, num, season, year).value;
      var asg := FindAssignment(db, classId, category, asgname).value;
      r.db == UpdateClassGrades(db.(submissions := SetScore(db.submissions, asg, uid, score, now)), classId)
  {
    match GetClassId(db, subject, num, season, year)
    case None => Response(false, db)
    case Some(classId) =>
      match FindAssignment(db, classId, category, asgname)
      case None => Response(false, db)
      case Some(asg) =>
        Response(true, UpdateClassGrades(db.(submissions := SetScore(db.submissions, asg, uid, score, now)), classId))
  }

  /** After scoring, submissions are still unique per (assignment, student)
      and the student's one submission to the assignment carries the score. */
  lemma GradeSubmissionStoresScore(db: Db, subject: string, num: nat, season: string, year: nat, category: string,
                                   asgname: string, uid: string, score: nat, now: nat)
    requires SubmissionsUnique(db.submissions)
    ensures var r := GradeSubmission(db, subject, num, season, year, category, asgname, uid, score, now);
      SubmissionsUnique(r.db.submissions)
      && (r.success ==>
            var asg := FindAssignment(db, GetClassId(db, subject, num, season, year).value, category, asgname).value;
            (exists k :: 0 <= k < |r.db.submissions| && SubmissionOf(r.db.submissions[k], asg, uid))
            && forall k :: 0 <= k < |r.db.submissions| && SubmissionOf(r.db.submissions[k], asg, uid) ==>
                 r.db.submissions[k].score == score)
  {
    var r := GradeSubmission(db, subject, num, season, year, category, asgname, uid, score, now);
    if r.success {
      var asg := FindAssignment(db, GetClassId(db, subject, num, season, year).value, category, asgname).value;
      SetScoreLeavesOneScoredSubmission(db.submissions, asg, uid, score, now);
    }
  }
}

=== FILE: scenarios.dfy ===
/** Worked examples on small concrete states: the weighted formula, the
    grades a category worth 0 points produces as written and under both
    readings of the fix, the GPA of an "A" and a "B", and the half-open
    overlap rule. */
module Scenarios {
  import opened Base
  import opened Schema
  import opened LetterScale
  import opened Grading
  import opened Student
  import opened Administrator
  import opened AsWritten

  const Catalog := [Course(1, "CS", 5530, "Database Systems")]
  const Offering := Class(1, 1, "Fall", 2024, "WEB L104", 32400, 36000, "u0000001")

  /** Homework weighs 50 and holds one 100-point assignment; Exam weighs 50
      and holds another; student u1 scored 80 and 90. */
  const Weighted := Db([], Catalog, [Offering],
    [Category(1, 1, "Homework", 50), Category(2, 1, "Exam", 50)],
    [Assignment(1, 1, "HW1", "", 0, 100), Assignment(2, 2, "Final", "", 0, 100)],
    [Submission(1, "u1", 0, 80, "hw"), Submission(2, "u1", 0, 90, "exam")],
    [Enrollment("u1", 1, NoGrade)])

  /** 0.8 * 50 + 0.9 * 50 = 85 out of a total weight of 100: a "B". */
  lemma WeightedScenario()
    ensures Percent(Weighted, 1, "u1") == 85.0
    ensures UpdateClassGrades(Weighted, 1).enrollments == [Enrollment("u1", 1, "B")]
  {
    var db := Weighted;
    var cats := ClassCategories(db.categories, 1);
    assert cats == db.categories;
    assert CategoryMax(db.assignments, 1) == 100;
    assert CategoryMax(db.assignments, 2) == 100;
    assert CategoryOf(db.assignments, 1) == Some(1);
    assert CategoryOf(db.assignments, 2) == Some(2);
    assert Earned(db.assignments, db.submissions, 1, "u1") == 80;
    assert Earned(db.assignments, db.submissions, 2, "u1") == 90;
    assert Scaled(db.assignments, db.submissions, cats, "u1") == 85.0;
  }

  /** Homework weighs 90 and holds one 100-point assignment, on which u1
      scored 100; Exam weighs 10 and has no assignment yet. */
  const EmptyExam := Db([], Catalog, [Offering],
    [Category(1, 1, "Homework", 90), Category(2, 1, "Exam", 10)],
    [Assignment(1, 1, "HW1", "", 0, 100)],
    [Submission(1, "u1", 0, 100, "hw")],
    [Enrollment("u1", 1, NoGrade)])

  /** The model grades u1 with 90 percent, an "A-"; dropping Exam with its
      weight gives 100 percent, an "A"; the controller's doubles divide 0 by
      0 for Exam and store the failing letter. */
  lemma EmptyExamScenario()
    ensures Percent(EmptyExam, 1, "u1") == 90.0
    ensures ConvertToLetterGrade(Percent(EmptyExam, 1, "u1")) == "A-"
    ensures PercentOverGraded(EmptyExam, 1, "u1") == 100.0
    ensures GradeAsWritten(EmptyExam, 1, "u1") == Failing
  {
    var db := EmptyExam;
    var cats := ClassCategories(db.categories, 1);
    assert cats == db.categories;
    assert CategoryMax(db.assignments, 1) == 100;
    assert CategoryMax(db.assignments, 2) == 0;
    assert CategoryOf(db.assignments, 1) == Some(1);
    assert Earned(db.assignments, db.submissions, 1, "u1") == 100;
    assert Scaled(db.assignments, db.submissions, cats, "u1") == 90.0;
    assert GradedWeight(db.assignments, cats) == 90;
    EmptyCategoryFailsEveryone(db, 1, "u1", db.categories[1]);
  }

  /** Extra weighs 10 and holds a 0-point assignment on which u1 scored 5;
      Homework weighs 90 and u1 scored 0 of 100 there. */
  const ZeroPointBonus := Db([], Catalog, [Offering],
    [Category(1, 1, "Homework", 90), Category(2, 1, "Extra", 10)],
    [Assignment(1, 1, "HW1", "", 0, 100), Assignment(2, 2, "Bonus", "", 0, 0)],
    [Submission(1, "u1", 0, 0, "hw"), Submission(2, "u1", 0, 5, "bonus")],
    [Enrollment("u1", 1, NoGrade)])

  /** The sums behind the ZeroPointBonus example, category by category. */
  lemma ZeroPointBonusSums()
    ensures Scaled(ZeroPointBonus.assignments, ZeroPointBonus.submissions, ZeroPointBonus.categories, "u1") == 0.0
    ensures GradedWeight(ZeroPointBonus.assignments, ZeroPointBonus.categories) == 90
    ensures ScaledAsWritten(ZeroPointBonus.assignments, ZeroPointBonus.submissions, ZeroPointBonus.categories, "u1") == PosInf
  {
    var db := ZeroPointBonus;
    assert CategoryMax(db.assignments, 1) == 100;
    assert CategoryMax(db.assignments, 2) == 0;
    assert CategoryOf(db.assignments, 1) == Some(1);
    assert CategoryOf(db.assignments, 2) == Some(2);
    assert Earned(db.assignments, db.submissions, 1, "u1") == 0;
    assert Earned(db.assignments, db.submissions, 2, "u1") == 5;
    assert Contribution(db.assignments, db.submissions, db.categories[1], "u1") == 0.0;
    assert db.categories[1..][1..] == [];
  }

  /** The model grades u1 with 0 percent, the failing letter; the
      controller's doubles divide 5 by 0, reach +Infinity and store an "A". */
  lemma ZeroPointBonusScenario()
    ensures Percent(ZeroPointBonus, 1, "u1") == 0.0
    ensures ConvertToLetterGrade(Percent(ZeroPointBonus, 1, "u1")) == Failing
    ensures PercentOverGraded(ZeroPointBonus, 1, "u1") == 0.0
    ensures GradeAsWritten(ZeroPointBonus, 1, "u1") == "A"
  {
    assert ClassCategories(ZeroPointBonus.categories, 1) == ZeroPointBonus.categories;
    ZeroPointBonusSums();
    InfiniteOrNaNSum(ZeroPointBonus, 1, "u1");
  }

  /** Homework weighs 100 and u1 scored 100 of 100 there; Extra weighs 0
      and holds a 0-point assignment on which u1 scored 5. */
  const ZeroWeightBonus := Db([], Catalog, [Offering],
    [Category(1, 1, "Homework", 100), Category(2, 1, "Extra", 0)],
    [Assignment(1, 1, "HW1", "", 0, 100), Assignment(2, 2, "Bonus", "", 0, 0)],
    [Submission(1, "u1", 0, 100, "hw"), Submission(2, "u1", 0, 5, "bonus")],
    [Enrollment("u1", 1, NoGrade)])

  /** The sums behind the ZeroWeightBonus example, category by category. */
  lemma ZeroWeightBonusSums()
    ensures Scaled(ZeroWeightBonus.assignments, ZeroWeightBonus.submissions, ZeroWeightBonus.categories, "u1") == 100.0
    ensures GradedWeight(ZeroWeightBonus.assignments, ZeroWeightBonus.categories) == 100
    ensures ScaledAsWritten(ZeroWeightBonus.assignments, ZeroWeightBonus.submissions, ZeroWeightBonus.categories, "u1") == NaN
  {
    var db := ZeroWeightBonus;
    assert CategoryMax(db.assignments, 1) == 100;
    assert CategoryMax(db.assignments, 2) == 0;
    assert CategoryOf(db.assignments, 1) == Some(1);
    assert CategoryOf(db.assignments, 2) == Some(2);
    assert Earned(db.assignments, db.submissions, 1, "u1") == 100;
    assert Earned(db.assignments, db.submissions, 2, "u1") == 5;
    assert Contribution(db.assignments, db.submissions, db.categories[1], "u1") == 0.0;
    assert db.categories[1..][1..] == [];
  }

  /** The model grades u1 with 100 percent, an "A"; the controller's doubles
      reach +Infinity for Extra, multiply it by the weight 0, get NaN and
      store the failing letter for a perfect student. */
  lemma ZeroWeightBonusScenario()
    ensures Percent(ZeroWeightBonus, 1, "u1") == 100.0
    ensures ConvertToLetterGrade(Percent(ZeroWeightBonus, 1, "u1")) == "A"
    ensures PercentOverGraded(ZeroWeightBonus, 1, "u1") == 100.0
    ensures GradeAsWritten(ZeroWeightBonus, 1, "u1") == Failing
  {
    assert ClassCategories(ZeroWeightBonus.categories, 1) == ZeroWeightBonus.categories;
    ZeroWeightBonusSums();
    InfiniteOrNaNSum(ZeroWeightBonus, 1, "u1");
  }

  /** Homework weighs 80 and u1 scored 0 of 100; Extra weighs 10 and holds
      a 0-point assignment on which u1 scored 5; Extra2 weighs 10 and holds
      a 0-point assignment u1 did not submit. No category lacks assignments. */
  const TwoBonus := Db([], Catalog, [Offering],
    [Category(1, 1, "Homework", 80), Category(2, 1, "Extra", 10), Category(3, 1, "Extra2", 10)],
    [Assignment(1, 1, "HW1", "", 0, 100), Assignment(2, 2, "Bonus", "", 0, 0), Assignment(3, 3, "Bonus2", "", 0, 0)],
    [Submission(1, "u1", 0, 0, "hw"), Submission(2, "u1", 0, 5, "bonus")],
    [Enrollment("u1", 1, NoGrade)])

  /** The terms behind the TwoBonus example, category by category. */
  lemma TwoBonusTerms()
    ensures ContributionAsWritten(TwoBonus.assignments, TwoBonus.submissions, TwoBonus.categories[1], "u1") == PosInf
    ensures ContributionAsWritten(TwoBonus.assignments, TwoBonus.submissions, TwoBonus.categories[2], "u1") == NaN
  {
    var db := TwoBonus;
    assert CategoryMax(db.assignments, 2) == 0;
    assert CategoryMax(db.assignments, 3) == 0;
    assert CategoryOf(db.assignments, 1) == Some(1);
    assert CategoryOf(db.assignments, 2) == Some(2);
    assert Earned(db.assignments, db.submissions, 2, "u1") == 5;
    assert Earned(db.assignments, db.submissions, 3, "u1") == 0;
  }

  /** The +Infinity of Extra does not reach the grade: the 0/0 of Extra2 is
      NaN, NaN absorbs the sum, and the controller stores "E". */
  lemma TwoBonusScenario()
    ensures GradeAsWritten(TwoBonus, 1, "u1") == Failing
  {
    var db := TwoBonus;
    var cats := ClassCategories(db.categories, 1);
    assert cats == db.categories;
    TwoBonusTerms();
    ScaledAsWrittenCases(db.assignments, db.submissions, cats, "u1");
    InfiniteOrNaNSum(db, 1, "u1");
  }

  /** Scores are not clamped: 150 of 100 points gives 150 percent. */
  lemma UnclampedScenario()
    ensures Percent(Db([], Catalog, [Offering], [Category(1, 1, "Homework", 100)],
                       [Assignment(1, 1, "HW1", "", 0, 100)], [Submission(1, "u1", 0, 150, "hw")], []), 1, "u1")
            == 150.0
  {
    var db := Db([], Catalog, [Offering], [Category(1, 1, "Homework", 100)],
                 [Assignment(1, 1, "HW1", "", 0, 100)], [Submission(1, "u1", 0, 150, "hw")], []);
    assert ClassCategories(db.categories, 1) == db.categories;
    assert CategoryMax(db.assignments, 1) == 100;
    assert CategoryOf(db.assignments, 1) == Some(1);
    assert Earned(db.assignments, db.submissions, 1, "u1") == 150;
  }

  /** A transcript of student u1: an "A", a "B", an ungraded and a null
      enrollment, and another student's "E" in between. */
  const Transcript := [Enrollment("u1", 1, "A"), Enrollment("u2", 1, "E"), Enrollment("u1", 2, "B"),
                       Enrollment("u1", 3, NoGrade), Enrollment("u1", 4, "")]

  /** Only the "A" and the "B" are counted for u1. */
  lemma TranscriptCountsTwo()
    ensures CountedGrades(Transcript, "u1") == ["A", "B"]
  {
    var es := Transcript;
    assert es[..1] == [Enrollment("u1", 1, "A")];
    assert es[..2][..1] == es[..1];
    assert es[..3][..2] == es[..2];
    assert es[..4][..3] == es[..3];
    assert es[..4] == es[..|es| - 1];
    assert CountedGrades(es[..1], "u1") == ["A"];
    assert CountedGrades(es[..2], "u1") == ["A"];
    assert CountedGrades(es[..3], "u1") == ["A", "B"];
    assert CountedGrades(es[..4], "u1") == ["A", "B"];
  }

  /** An "A" and a "B" average to 3.5; the ungraded and null enrollments
      and another student's grade are not counted. */
  lemma GpaScenario()
    ensures Gpa(Transcript, "u1") == 3.5
  {
    TranscriptCountsTwo();
    assert ["A", "B"][..1] == ["A"];
    assert SumPoints(["A", "B"]) == 7.0;
  }

  /** Room WEB L104 is booked 10:00-11:00 in Fall 2024 for CS 5530; CS 5540
      has no offering yet. */
  const Booked := Db([], [Course(1, "CS", 5530, "Database Systems"), Course(2, "CS", 5540, "Compilers")],
    [Class(1, 1, "Fall", 2024, "WEB L104", 36000, 39600, "u0000001")], [], [], [], [])

  /** Timestamps on day 5 of the epoch, at hours and minutes given in seconds. */
  function At(seconds: nat): nat { 5 * SecondsPerDay + seconds }

  /** 9:00-10:00 ends as the booking begins: accepted. 9:00-10:30 runs into
      it: rejected. Offering CS 5530 again is rejected even in another room. */
  lemma OverlapScenario()
    ensures ValidateNewOffering(Booked, "CS", 5540, "Fall", 2024, At(32400), At(36000), "WEB L104") == Accept(2)
    ensures ValidateNewOffering(Booked, "CS", 5540, "Fall", 2024, At(32400), At(37800), "WEB L104")
            == Reject(LocationConflict)
    ensures ValidateNewOffering(Booked, "CS", 5530, "Fall", 2024, At(32400), At(36000), "MEB 3147")
            == Reject(DuplicateOffering)
    ensures ValidateNewOffering(Booked, "CS", 6000, "Fall", 2024, At(32400), At(36000), "MEB 3147")
            == Reject(UnknownCourse)
  {
    assert TimeOfDay(At(32400)) == 32400;
    assert TimeOfDay(At(36000)) == 36000;
    assert TimeOfDay(At(37800)) == 37800;
    assert IsCourse(Booked.courses[1], "CS", 5540);
    assert IsCourse(Booked.courses[0], "CS", 5530);
    var booked := Booked.classes[0];
    assert booked.listing == 1 && booked.season == "Fall" && booked.year == 2024;
    assert OfferedIn(Booked.classes, 1, "Fall", 2024);
  }
}

=== FILE: schema.dfy ===
/** The tables the controllers read and write, reduced to the columns the
    grading and scheduling logic uses, and the uniqueness rules the
    controllers maintain over them. */
module Schema {
  import opened Base

  datatype Department = Department(subject: string, name: string)

  /** A catalog entry, identified by (subject, number). */
  datatype Course = Course(catalogId: Id, subject: string, number: nat, name: string)

  /** A class offering of the course `listing`; `startTime` and `endTime` are
      times of day in seconds. */
  datatype Class = Class(classId: Id, listing: Id, season: string, year: nat, location: string,
                         startTime: nat, endTime: nat, taughtBy: string)

  datatype Category = Category(categoryId: Id, inClass: Id, name: string, weight: nat)

  datatype Assignment = Assignment(assignmentId: Id, category: Id, name: string, contents: string,
                                   due: nat, maxPoints: nat)

  /** The submission of `student` to `assignment`; `time` is a timestamp. */
  datatype Submission = Submission(assignment: Id, student: string, time: nat, score: nat, contents: string)

  /** `grade` is a letter, the placeholder `NoGrade`, or "" for a null column. */
  datatype Enrollment = Enrollment(student: string, classId: Id, grade: string)

  datatype Db = Db(departments: seq<Department>, courses: seq<Course>, classes: seq<Class>,
                   categories: seq<Category>, assignments: seq<Assignment>,
                   submissions: seq<Submission>, enrollments: seq<Enrollment>)

  /** What every mutating action answers: `success` and the state after it. */
  datatype Response = Response(success: bool, db: Db)

  /** The grade of an enrollment that has not been graded yet. */
  const NoGrade: string := "--"

  const SecondsPerDay: nat := 86400

  /** The time-of-day part of a timestamp given in seconds. */
  function TimeOfDay(t: nat): (r: nat)
    ensures r < SecondsPerDay && r <= t
    ensures (t - r) % SecondsPerDay == 0
  {
    t % SecondsPerDay
  }

  /** Half-open intervals [s1, e1) and [s2, e2) share a moment. */
  predicate Overlaps(s1: nat, e1: nat, s2: nat, e2: nat) {
    s1 < e2 && e1 > s2
  }

  /** Overlap does not depend on which interval comes first, and intervals
      that only meet at an endpoint do not overlap. */
  lemma OverlapsIsSymmetric(s1: nat, e1: nat, s2: nat, e2: nat)
    ensures Overlaps(s1, e1, s2, e2) <==> Overlaps(s2, e2, s1, e1)
    ensures e1 == s2 || e2 == s1 ==> !Overlaps(s1, e1, s2, e2)
  {
  }

  predicate SameRoomAndSemester(a: Class, b: Class) {
    a.location == b.location && a.season == b.season && a.year == b.year
  }

  // Uniqueness rules. Each says that two different rows never share a key.

  predicate SubjectsUnique(ds: seq<Department>) {
    forall i, j :: 0 <= i < |ds| && 0 <= j < |ds| && i != j ==> ds[i].subject != ds[j].subject
  }

  predicate CourseKeysUnique(cs: seq<Course>) {
    forall i, j :: 0 <= i < |cs| && 0 <= j < |cs| && i != j ==>
      cs[i].subject != cs[j].subject || cs[i].number != cs[j].number
  }

  predicate ClassIdsUnique(cls: seq<Class>) {
    forall i, j :: 0 <= i < |cls| && 0 <= j < |cls| && i != j ==> cls[i].classId != cls[j].classId
  }

  /** At most one offering of a course per (season, year). */
  predicate OneOfferingPerSemester(cls: seq<Class>) {
    forall i, j :: 0 <= i < |cls| && 0 <= j < |cls| && i != j ==>
      cls[i].listing != cls[j].listing || cls[i].season != cls[j].season || cls[i].year != cls[j].year
  }

  /** No two offerings in the same location and semester overlap in time. */
  predicate NoRoomConflicts(cls: seq<Class>) {
    forall i, j :: 0 <= i < |cls| && 0 <= j < |cls| && i != j && SameRoomAndSemester(cls[i], cls[j]) ==>
      !Overlaps(cls[i].startTime, cls[i].endTime, cls[j].startTime, cls[j].endTime)
  }

  predicate CategoryNamesUnique(cats: seq<Category>) {
    forall i, j :: 0 <= i < |cats| && 0 <= j < |cats| && i != j ==>
      cats[i].inClass != cats[j].inClass || cats[i].name != cats[j].name
  }

  predicate AssignmentNamesUnique(asgs: seq<Assignment>) {
    forall i, j :: 0 <= i < |asgs| && 0 <= j < |asgs| && i != j ==>
      asgs[i].category != asgs[j].category || asgs[i].name != asgs[j].name
  }

  /** At most one submission per (assignment, student). */
  predicate SubmissionsUnique(subs: seq<Submission>) {
    forall i, j :: 0 <= i < |subs| && 0 <= j < |subs| && i != j ==>
      subs[i].assignment != subs[j].assignment || subs[i].student != subs[j].student
  }

  /** At most one enrollment per (student, class). */
  predicate EnrollmentsUnique(es: seq<Enrollment>) {
    forall i, j :: 0 <= i < |es| && 0 <= j < |es| && i != j ==>
      es[i].student != es[j].student || es[i].classId != es[j].classId
  }
}

=== FILE: student.dfy ===
/** The student's actions: enrolling, submitting assignment text, the grade
    shown in the class list, and the GPA. */
module Student {
  import opened Base
  import opened Schema
  import opened Lookup
  import opened LetterScale

  /** The grade shown for an enrollment: the placeholder while the stored
      grade is null or empty, the stored grade otherwise. */
  function DisplayGrade(stored: string): (shown: string)
    ensures stored == "" ==> shown == NoGrade
    ensures stored != "" ==> shown == stored
  {
    if stored == "" then NoGrade else stored
  }

  /** Does an enrollment with this grade count towards the GPA? */
  predicate Counted(grade: string) {
    grade != "" && grade != NoGrade
  }

  /** An enrollment counts towards the GPA exactly when the class list shows
      it with a grade rather than the placeholder. */
  lemma CountedIffDisplayedGraded(grade: string)
    ensures Counted(grade) <==> DisplayGrade(grade) != NoGrade
  {
  }

  /** The grades of `uid`'s enrollments that count towards the GPA, in table order. */
  function CountedGrades(es: seq<Enrollment>, uid: string): (gs: seq<string>)
    ensures |gs| <= |es|
    ensures forall k :: 0 <= k < |gs| ==> Counted(gs[k])
  {
    if |es| == 0 then []
    else
      var rest := CountedGrades(es[..|es| - 1], uid);
      var e := es[|es| - 1];
      if e.student == uid && Counted(e.grade) then rest + [e.grade] else rest
  }

  /** Sum of the grade points of `gs`. */
  function SumPoints(gs: seq<string>): (t: real)
    ensures 0.0 <= t <= 4.0 * |gs| as real
  {
    if |gs| == 0 then 0.0 else SumPoints(gs[..|gs| - 1]) + LetterToPoint(gs[|gs| - 1])
  }

  /** Unweighted mean of the grade points of `gs`; 0 for no grades. */
  function MeanPoints(gs: seq<string>): (m: real)
    ensures 0.0 <= m <= 4.0
    ensures |gs| == 0 ==> m == 0.0
  {
    if |gs| == 0 then 0.0
    else
      MeanBound(SumPoints(gs), |gs| as real, 4.0);
      SumPoints(gs) / |gs| as real
  }

  /** A total of at most `m` per item, shared among `n` items, is at most `m` each. */
  lemma MeanBound(total: real, n: real, m: real)
    requires n > 0.0 && 0.0 <= total <= m * n
    ensures 0.0 <= total / n <= m && total / n * n == total
  {
  }

  /** The mean times the number of grades is their total of points. */
  lemma MeanTimesCount(gs: seq<string>)
    requires |gs| > 0
    ensures MeanPoints(gs) * (|gs| as real) == SumPoints(gs)
  {
    QuotientTimesDivisor(MeanPoints(gs), SumPoints(gs), |gs| as real);
  }

  lemma QuotientTimesDivisor(q: real, total: real, n: real)
    requires n > 0.0 && q == total / n
    ensures q * n == total
  {
  }

  /** `uid`'s GPA: the mean of the points of the grades that count. */
  function Gpa(es: seq<Enrollment>, uid: string): (gpa: real)
    ensures 0.0 <= gpa <= 4.0
    ensures |CountedGrades(es, uid)| == 0 ==> gpa == 0.0
  {
    MeanPoints(CountedGrades(es, uid))
  }

  /** The GPA as the controller computes it: filter the counted enrollments,
      then accumulate their points and count them. */
  method GetGPA(es: seq<Enrollment>, uid: string) returns (gpa: real)
    ensures gpa == Gpa(es, uid)
  {
    var enrollments := CountedGrades(es, uid);
    if |enrollments| == 0 {
      return 0.0;
    }
    var totalPoints := 0.0;
    var count := 0;
    while count < |enrollments|
      invariant 0 <= count <= |enrollments|
      invariant totalPoints == SumPoints(enrollments[..count])
    {
      assert enrollments[..count + 1][..count] == enrollments[..count];
      totalPoints := totalPoints + LetterToPoint(enrollments[count]);
      count := count + 1;
    }
    assert enrollments[..count] == enrollments;
    gpa := totalPoints / count as real;
  }

  /** Enrollments of other students and ungraded enrollments are not
      counted, so they do not move a student's GPA. */
  lemma GpaIgnoresUncounted(es: seq<Enrollment>, uid: string, e: Enrollment)
    requires e.student != uid || !Counted(e.grade)
    ensures CountedGrades(es + [e], uid) == CountedGrades(es, uid)
    ensures Gpa(es + [e], uid) == Gpa(es, uid)
  {
    assert (es + [e])[..|es + [e]| - 1] == es;
  }

  /** A counted grade of `uid` joins the mean. */
  lemma GpaCountsGraded(es: seq<Enrollment>, uid: string, e: Enrollment)
    requires e.student == uid && Counted(e.grade)
    ensures CountedGrades(es + [e], uid) == CountedGrades(es, uid) + [e.grade]
  {
    assert (es + [e])[..|es + [e]| - 1] == es;
  }

  /** The filter keeps one grade per counted enrollment of `uid`, and a
      grade is kept exactly when some counted enrollment of `uid` has it. */
  lemma {:induction false} CountedGradesAreUids(es: seq<Enrollment>, uid: string)
    ensures |CountedGrades(es, uid)| == |set k | 0 <= k < |es| && es[k].student == uid && Counted(es[k].grade)|
    ensures forall g :: g in CountedGrades(es, uid) <==>
      exists k :: 0 <= k < |es| && es[k].student == uid && Counted(es[k].grade) && es[k].grade == g
  {
    if |es| > 0 {
      var init := es[..|es| - 1];
      var e := es[|es| - 1];
      assert init + [e] == es;
      CountedGradesAreUids(init, uid);
      var before := set k | 0 <= k < |init| && init[k].student == uid && Counted(init[k].grade);
      var after := set k | 0 <= k < |es| && es[k].student == uid && Counted(es[k].grade);
      if e.student == uid && Counted(e.grade) {
        GpaCountsGraded(init, uid, e);
        assert after == before + {|es| - 1};
      } else {
        GpaIgnoresUncounted(init, uid, e);
        assert after == before;
      }
    }
  }

  predicate IsEnrolled(es: seq<Enrollment>, uid: string, classId: Id) {
    exists k :: 0 <= k < |es| && es[k].student == uid && es[k].classId == classId
  }

  /** Enrolls `uid` in the class with grade `NoGrade`; fails, changing
      nothing, when the class is unknown or `uid` is already enrolled in it. */
  function Enroll(db: Db, subject: string, num: nat, season: string, year: nat, uid: string): (r: Response)
    ensures r.success <==>
      var classId := GetClassId(db, subject, num, season, year);
      classId.Some? && !IsEnrolled(db.enrollments, uid, classId.value)
    ensures !r.success ==> r.db == db
    ensures r.success ==>
      r.db == db.(enrollments := db.enrollments +
                   [Enrollment(uid, GetClassId(db, subject, num, season, year).value, NoGrade)])
  {
    match GetClassId(db, subject, num, season, year)
    case None => Response(false, db)
    case Some(classId) =>
      if IsEnrolled(db.enrollments, uid, classId) then Response(false, db)
      else Response(true, db.(enrollments := db.enrollments + [Enrollment(uid, classId, NoGrade)]))
  }

  /** Enrolling keeps one enrollment per (student, class), and afterwards the
      student is enrolled in the class. */
  lemma EnrollKeepsEnrollmentsUnique(db: Db, subject: string, num: nat, season: string, year: nat, uid: string)
    requires EnrollmentsUnique(db.enrollments)
    ensures var r := Enroll(db, subject, num, season, year, uid);
      EnrollmentsUnique(r.db.enrollments)
      && (r.success ==> IsEnrolled(r.db.enrollments, uid, GetClassId(db, subject, num, season, year).value))
  {
    var r := Enroll(db, subject, num, season, year, uid);
    if r.success {
      assert r.db.enrollments[|db.enrollments|].student == uid;
    }
  }

  /** Stores `uid`'s submission of `contents` to `asg` at time `now`: a first
      submission starts with score 0, a resubmission replaces contents and
      time and keeps the score. */
  function PutContents(subs: seq<Submission>, asg: Id, uid: string, contents: string, now: nat): (r: seq<Submission>)
    ensures exists k :: 0 <= k < |r| && SubmissionOf(r[k], asg, uid) && r[k].contents == contents && r[k].time == now
    ensures FindSubmission(subs, asg, uid).Some? ==> |r| == |subs|
    ensures FindSubmission(subs, asg, uid).None? ==>
      |r| == |subs| + 1 && r[|subs|] == Submission(asg, uid, now, 0, contents)
    ensures forall k :: 0 <= k < |subs| ==>
      r[k].assignment == subs[k].assignment && r[k].student == subs[k].student && r[k].score == subs[k].score
    ensures forall k :: 0 <= k < |subs| && !SubmissionOf(subs[k], asg, uid) ==> r[k] == subs[k]
  {
    match FindSubmission(subs, asg, uid)
    case None =>
      var r := subs + [Submission(asg, uid, now, 0, contents)];
      assert SubmissionOf(r[|subs|], asg, uid);
      r
    case Some(k) =>
      var r := subs[k := subs[k].(contents := contents, time := now)];
      assert SubmissionOf(r[k], asg, uid);
      r
  }

  /** Submitting keeps one submission per (assignment, student), and that
      one submission holds the latest contents and time. */
  lemma PutContentsLeavesOneSubmission(subs: seq<Submission>, asg: Id, uid: string, contents: string, now: nat)
    requires SubmissionsUnique(subs)
    ensures var r := PutContents(subs, asg, uid, contents, now);
      SubmissionsUnique(r)
      && forall k :: 0 <= k < |r| && SubmissionOf(r[k], asg, uid) ==> r[k].contents == contents && r[k].time == now
  {
  }

  /** Submits `contents` for `uid` to assignment `asgname` of the class;
      fails, changing nothing, when the class or the assignment is unknown.
      Grades are not recomputed. */
  function SubmitAssignmentText(db: Db, subject: string, num: nat, season: string, year: nat, category: string,
                                asgname: string, uid: string, contents: string, now: nat): (r: Response)
    ensures r.success <==>
      var classId := GetClassId(db, subject, num, season, year);
      classId.Some? && FindAssignment(db, classId.value, category, asgname).Some?
    ensures !r.success ==> r.db == db
    ensures r.success ==>
      var asg := FindAssignment(db, GetClassId(db, subject, num, season, year).value, category, asgname).value;
      r.db == db.(submissions := PutContents(db.submissions, asg, uid, contents, now))
  {
    match GetClassId(db, subject, num, season, year)
    case None => Response(false, db)
    case Some(classId) =>
      match FindAssignment(db, classId, category, asgname)
      case None => Response(false, db)
      case Some(asg) => Response(true, db.(submissions := PutContents(db.submissions, asg, uid, contents, now)))
  }
}
